=== FILE: README.md ===
# cloudflare-ddns core, modelled in Dafny

This project models the logic at the heart of cloudflare-ddns, a dynamic DNS updater for Cloudflare, and proves properties of it. It covers four parts:

- **The Cloudflare client** (`cloudflare.dfy`, module `Cloudflare`):
  - zone resolution from the last two labels of a domain (`getZone`);
  - the paged search for the one record of a name and type (`GetRecord`);
  - the record update (`UpdateRecord`);
  - the translation of a provider envelope into an error (`checkError`).

  The HTTP exchange is an oracle `server: Call -> Reply`. It maps each call the client issues (list zones, list one record page, put a record) to the reply observed: a decoded JSON envelope, a JSON value that is not an object, a body that json refuses, or a transport failure.
- **The retry decorator** (`retry.dfy`, module `Resilience`). `Retry` is a class with the `Wait` and `Attempts` fields. `RoundTrip` normalises them in place and runs the attempt loop. The inner round-tripper is an oracle `next(i)`, giving attempt i's result. How each wait ends is an oracle `waits(i)`: the wait elapses, or the request context is done first.
- **Command-line validation** (`command_params.dfy`, module `CommandParams`). This is `Parse` from the point where the flag set has filled its locals: the checks, the defaults and the joined error.
- **Environment validation** (`environment.dfy`, module `Environment`). This is `FromEnvironment` over an environment map. An unset variable reads as "".
- **Shared vocabulary** (`text.dfy`, module `Text`):
  - `Option` and `Result`;
  - Go's 64-bit integers, with wrap-around;
  - `time.Second * time.Duration(n)`;
  - `strings.Split` on "." and `strings.Join`;
  - `strings.Contains`;
  - `%d` and `%q`;
  - `strconv.Atoi` and `strconv.ParseBool`.

Every imperative operation is a method proved against a specification function:

| method | specification function |
|---|---|
| `GetRecord` | `GetRecordSpec`, built on `ScanFrom` |
| `RoundTrip` | `Run` |
| `CheckError` | `ReportText` of `ErrorReport` |
| `Parse` | `Validated` |
| `FromEnvironment` | `Loaded` |

The lemmas state the promised behaviour of those functions. In the model, `getZone` and `send` (after the reply) are the pure functions `GetZone` and `Send`.

Three behaviours of the code worth knowing:

- In `checkError`, each error's chain entries are rendered under the parent's code, and the chain is not recursed into.
- When a records page fails, `GetRecord` returns the candidate it already held together with the error. It does not return the zero record.
- The two configuration files declare different `CloudFlare` structs in the same package. The environment one has no `IPVersion`. They are modelled as two modules.

## Model

| member | source | states |
|---|---|---|
| Cloudflare.ErrorReport | pkg/cloudflare/client.go:184-211 | checkError objects to nothing exactly when the decoded value is a struct whose Success is true or whose Errors list is empty |
| Cloudflare.CheckError | pkg/cloudflare/client.go:184-222 | the loop returns no error exactly when ErrorReport finds nothing; otherwise it returns "error in the response" followed by every error's piece and its direct chain pieces, in order |
| Cloudflare.AppendChain | pkg/cloudflare/client.go:216-218 | the inner loop appends one ": [code] message" piece per direct chain entry, under the parent's code |
| Cloudflare.ChainLines | pkg/cloudflare/client.go:216-218 | a chain contributes exactly one line per direct entry |
| Cloudflare.RenderChainStep | pkg/cloudflare/client.go:216-218 | one more chain entry appends exactly one more piece, with the parent's code and the entry's message |
| Cloudflare.RenderLinesStep | pkg/cloudflare/client.go:214-219 | one more error appends its own piece, then its chain's pieces |
| Cloudflare.ReportMentionsEveryError | pkg/cloudflare/client.go:213-221 | the report contains every error's own piece and every direct chain entry's piece, under the error's code |
| Cloudflare.ReportIgnoresNestedChains | pkg/cloudflare/client.go:216-218 | the report does not depend on chain entries' codes or on their own chains: the chain is not recursed into |
| Cloudflare.Send | pkg/cloudflare/client.go:153-166 | send succeeds exactly when a JSON reply was decoded into an envelope that checkError accepts, and then it returns that envelope |
| Cloudflare.SendIntoNilRefuses | pkg/cloudflare/client.go:158-163 | a JSON object reply decoded into the nil interface, whether shaped like the envelope or not and whatever its success flag, always yields "error from CloudFlare: received non-struct item: map" |
| Cloudflare.SendRefusedByDecoder | pkg/cloudflare/client.go:158-160 | text that is not JSON fails either call, and an object that does not fit the envelope fails a call expecting the envelope, with "could not decode response: " followed by json's error |
| Cloudflare.Decode | pkg/cloudflare/client.go:158-192 | what checkError sees after a JSON object is decoded: the envelope's success flag and errors for a `DNSResponse` target, the map kind for the nil interface; Send, SendIntoNilRefuses and GetZoneOutcomes state the consequences |
| Cloudflare.DecodeNonObject | pkg/cloudflare/client.go:158-192 | encoding/json on a value that is not an object: the invalid kind for null, json's type error for a `DNSResponse` target, the stored kind otherwise; SendNull, SendNonObjectIntoEnvelope and SendNonObjectIntoNil state the resulting errors |
| Cloudflare.Url | pkg/cloudflare/client.go:180-182 | `api` and the three URLs built with it (client.go lines 83, 121 and 128): every request URL starts with the API base followed by "/zones", and the record listing and the PUT sit under "/zones/<zone>/dns_records"; FirstPageUrl gives page 1's URL in full |
| Cloudflare.Message | pkg/cloudflare/client.go:153-163 | the `Error()` text of every error the client returns (send's wrappings here, and those at client.go lines 78, 91, 100, 130, 137, 191 and 221), each `%w` layer prefixing its cause; WrappingKeepsCause, DuplicateEntryMentions and NoRecordMentions state that the cause, the name and the type appear in it |
| Cloudflare.SendNull | pkg/cloudflare/client.go:158-163 | a JSON null reply fails either kind of call with "error from CloudFlare: received non-struct item: invalid", because json sets `recv` to nil |
| Cloudflare.SendNonObjectIntoEnvelope | pkg/cloudflare/client.go:158-160 | an array, string, number or bool reply to a call expecting the envelope fails in the decoder: "could not decode response: json: cannot unmarshal <kind> into Go value of type cloudflare.DNSResponse" |
| Cloudflare.SendNonObjectIntoNil | pkg/cloudflare/client.go:158-163 | such a reply decoded into the nil interface fails in checkError with the kind json stores: slice, string, float64 or bool |
| Cloudflare.ZoneKeyIsLastTwoLabels | pkg/cloudflare/client.go:126-127 | for any domain of two or more dot-free labels, the zone key is the last two labels joined by "." |
| Cloudflare.ZoneKeyExamples | pkg/cloudflare/client.go:126-128 | "home.nenad.dev" and "nenad.dev" both look up "nenad.dev" |
| Cloudflare.ZoneKey | pkg/cloudflare/client.go:126-127 | the lookup key: the last two dot-separated labels of the domain, joined by "."; what it returns is stated by ZoneKeyIsLastTwoLabels and ZoneKeyExamples |
| Cloudflare.GetZone | pkg/cloudflare/client.go:124-138 | getZone as a function of the server's reply to the zone listing; its outcomes are stated by GetZoneOutcomes |
| Cloudflare.GetZoneOutcomes | pkg/cloudflare/client.go:124-138 | getZone succeeds exactly when the listing came back accepted and non-empty, and then returns the first zone's id; a failed send is wrapped as "could not get zone list"; an empty list names the domain |
| Cloudflare.ScanPage | pkg/cloudflare/client.go:88-96 | the inner loop over one page's records; its results are stated by ScanPageMatches and ScanPageHoldsMatch |
| Cloudflare.ScanFrom | pkg/cloudflare/client.go:81-106 | the outer loop from a page on; its calls and results are stated by ScanStep, StopsAt, SearchEndsAt, SearchDuplicateAt, SearchFailsAt, ScanFromCalls and ScanFromMatch |
| Cloudflare.GetRecordSpec | pkg/cloudflare/client.go:74-107 | GetRecord as a function: the zone lookup, then ScanFrom from page 1; the GetRecord method is proved equal to it, and GetRecordFound, GetRecordNotFound, GetRecordDuplicate, GetRecordPageFailure, GetRecordZoneFailure and GetRecordReturnsMatch state what it returns |
| Cloudflare.GetRecord | pkg/cloudflare/client.go:74-107 | the loop returns the record, the error and the calls of GetRecordSpec: the zone first, then pages 1, 2, ... until a failure, a second match or the last page |
| Cloudflare.PageCalls | pkg/cloudflare/client.go:83 | the page calls from one page to another ask for the pages in order, one call per page |
| Cloudflare.SeenIsMatchesOfListing | pkg/cloudflare/client.go:88-89 | the matches seen up to page n are the matching records of pages 1 to n, in page-then-listing order |
| Cloudflare.MatchesAllMatch | pkg/cloudflare/client.go:89 | the matches are exactly the listed records whose name and type are the ones asked for |
| Cloudflare.ScanPageMatches | pkg/cloudflare/client.go:88-96 | holding at most one earlier match, the scan of a page holds the single match so far, or stops on the second match |
| Cloudflare.ScanStep | pkg/cloudflare/client.go:98-105 | a page that announces more pages, with at most one match so far, hands the search on to the next page after asking for this one |
| Cloudflare.ScanAdvances | pkg/cloudflare/client.go:81-106 | while pages announce more and at most one match has been seen, the search goes from page p to page n, asking for pages p to n - 1 in order |
| Cloudflare.Chain | pkg/cloudflare/client.go:81-106 | searches that each hand over to the next page ask for the pages in order |
| Cloudflare.StopsAt | pkg/cloudflare/client.go:75-106 | a search from page 1 that stops at page n has asked for pages 1 to n and returns what page n gave |
| Cloudflare.SearchEndsAt | pkg/cloudflare/client.go:98-103 | at the last page, with at most one match: the single match and no error, or the zero record and a "no record" error |
| Cloudflare.SearchDuplicateAt | pkg/cloudflare/client.go:89-91 | a second match on page n gives the zero record and a duplicate error, with no call after page n |
| Cloudflare.SearchFailsAt | pkg/cloudflare/client.go:83-86 | a failing page gives its error together with the candidate held so far |
| Cloudflare.GetRecordAt | pkg/cloudflare/client.go:74-107 | once the zone is known, a search that stops at page n asks for the zone, then pages 1 to n, and returns what page n gave |
| Cloudflare.GetRecordZoneFailure | pkg/cloudflare/client.go:76-79 | a zone failure is wrapped as "error getting zone information", with the zero record and no page call |
| Cloudflare.GetRecordFound | pkg/cloudflare/client.go:88-103 | exactly one match up to the last page: that record, whatever its page, with no error, after pages 1 to n |
| Cloudflare.GetRecordNotFound | pkg/cloudflare/client.go:98-100 | no match up to the last page: the zero record and a "no record" error |
| Cloudflare.GetRecordDuplicate | pkg/cloudflare/client.go:89-91 | a second match in page-then-listing order: the zero record and a duplicate error; no later page is asked for |
| Cloudflare.GetRecordPageFailure | pkg/cloudflare/client.go:83-86 | a failing page ends the search with its error and the candidate held so far |
| Cloudflare.ScanFromCalls | pkg/cloudflare/client.go:81-106 | the scan asks for at least one page, and for consecutive pages from its first |
| Cloudflare.GetRecordAsksPagesInOrder | pkg/cloudflare/client.go:75-105 | GetRecord asks for the zone first; on a zone failure it asks nothing more; otherwise it asks for pages 1, 2, 3, ... in order, at least one |
| Cloudflare.ScanPageHoldsMatch | pkg/cloudflare/client.go:88-96 | the scan of a page keeps its candidate or takes a record with the name and type asked for |
| Cloudflare.ScanFromMatch | pkg/cloudflare/client.go:81-106 | a scan that ends without an error ends on a record with the name and type asked for |
| Cloudflare.GetRecordReturnsMatch | pkg/cloudflare/client.go:74-107 | whenever GetRecord returns no error, its record has the name and type asked for and is not the zero record |
| Cloudflare.WrappingKeepsCause | pkg/cloudflare/client.go:78 | `%w` wrapping of a zone failure keeps the cause's whole text |
| Cloudflare.DuplicateEntryMentions | pkg/cloudflare/client.go:91 | the duplicate error contains "duplicate" and the quoted name |
| Cloudflare.NoRecordMentions | pkg/cloudflare/client.go:100 | the not-found error contains "no record", the quoted name and the type |
| Cloudflare.FirstPageUrl | pkg/cloudflare/client.go:83 | the first page URL of zone12345 is ".../zones/zone12345/dns_records?page=1&per_page=50" |
| Cloudflare.UpdateRecord | pkg/cloudflare/client.go:111-122 | TTL 0 is sent as 1; the zone is resolved from the request's name; a zone failure is wrapped and no PUT is issued; otherwise the PUT carries the request; no reply ever gives success, and every JSON object reply, shaped like the envelope or not, comes back as "received non-struct item: map" |
| Cloudflare.UpdateRecordChecked | pkg/cloudflare/client.go:111-122 | the same update with the reply decoded into an envelope: for an envelope-shaped JSON object reply, no error exactly when the provider reports success or an empty error list; any other object fails in the decoder |
| Cloudflare.Sent | pkg/cloudflare/client.go:112-114 | a TTL of 0 becomes 1 and nothing else changes; any other request is put as given, so the TTL put is never 0 |
| Cloudflare.UpdateSendsNonZeroTtl | pkg/cloudflare/client.go:112-114 | the PUT body is the request with a TTL of 0 turned into 1, and the request itself for any other TTL, negative TTLs included; its TTL is never 0 |
| Resilience.RunFrom | pkg/resilience/retry.go:24-37 | the attempt loop from attempt i on, over the oracles; its behaviour is stated by Tried, CallsFrom, RunAfter, FirstSuccess, Cancelled and AllFailed |
| Resilience.Run | pkg/resilience/retry.go:24-37 | the whole loop from attempt 0; RoundTrip is proved equal to it over the normalised settings, and CallsBounded, NoErrorMeansSuccess and FlakyScenarios state what it returns |
| Resilience.Retry.constructor | pkg/resilience/retry.go:10-14 | a Retry holds the given Wait and Attempts |
| Resilience.Retry.RoundTrip | pkg/resilience/retry.go:16-38 | Attempts of 0 or less becomes 3 and a Wait of 0 becomes one second, on the receiver; the response, the error and the steps are those of Run over the normalised settings |
| Resilience.Tried | pkg/resilience/retry.go:24-35 | k failed passes are 2k steps: each attempt followed by its wait |
| Resilience.CallsFrom | pkg/resilience/retry.go:24-25 | each pass of the loop calls the inner round-tripper once, so a run from attempt i calls it between 1 and attempts - i times |
| Resilience.CallsBounded | pkg/resilience/retry.go:24-25 | the inner round-tripper is called at least once and at most Attempts times |
| Resilience.RunAfter | pkg/resilience/retry.go:24-35 | after k failed attempts, each followed by a full wait, the run goes on as the run from attempt k |
| Resilience.FirstSuccess | pkg/resilience/retry.go:27-29 | the first result with no transport error and a status below 500 is returned at once, with no error and no further call |
| Resilience.Cancelled | pkg/resilience/retry.go:31-33 | a context done during the wait ends the run with the last response and the context's error, with no further attempt |
| Resilience.AllFailed | pkg/resilience/retry.go:31-37 | when every attempt fails, a wait follows each of them, the final one included, and the error carries the attempt count and the last inner error |
| Resilience.NoErrorMeansSuccess | pkg/resilience/retry.go:27-37 | RoundTrip returns no error exactly when it returns a response with a status below 500 |
| Resilience.FlakyScenarios | pkg/resilience/retry_test.go:28-67 | an inner round-tripper that fails k times and then answers 200 gives the 200 after exactly k + 1 calls when Attempts > k; otherwise it gives the exhaustion error with "failure when connecting" |
| Resilience.TriedCalls | pkg/resilience/retry.go:24-35 | k failed passes contain exactly k inner calls |
| Resilience.ExhaustedMessage | pkg/resilience/retry.go:37 | the exhaustion message contains the attempt count and the last inner error's text |
| Text.Seconds | pkg/config/command_params.go:105 | `time.Second * time.Duration(n)` is n seconds in nanoseconds whenever that product fits in an int64, negative n included; otherwise it is the product wrapped modulo 2^64 into the int64 range, as Go's multiplication wraps |
| Text.Atoi | pkg/config/environment.go:41 | Go's Atoi as strconv reads it: an optional sign, then digits read from the left until the first byte that is not a digit (a syntax error, value 0) or the first digit that takes the magnitude past 2^64 - 1 (a range error with the clamped value, whatever follows); its behaviour is stated by the lemmas below |
| Text.AtoiIntToString | pkg/config/environment.go:41 | Atoi reads back what %d prints, for every 64-bit integer |
| Text.AtoiOverflowIgnoresRest | pkg/config/environment.go:41 | digits worth more than 2^64 - 1 give MaxInt64, or MinInt64 after a "-", whatever bytes follow them |
| Text.AtoiTrailingByte | pkg/config/environment.go:41 | digits that fit, followed by a byte that is not a digit, are a syntax error |
| Text.AtoiOverflowExample | pkg/config/environment.go:41 | "99999999999999999999x" reads as MaxInt64 |
| Text.ParseBool | pkg/config/environment.go:51-54 | Go's ParseBool: "1", "t", "T", "TRUE", "true" and "True" are true, "0", "f", "F", "FALSE", "false" and "False" are false, anything else a syntax error; ParseBoolFormatBool states that it reads back FormatBool and refuses "" |
| CommandParams.Parse | pkg/config/command_params.go:66-109 | no error exactly when the token and domain are non-empty and the type is "A" or "AAAA"; on an error, the zero Configuration and the failed checks' messages joined by "; " in check order; otherwise the configuration of Validated |
| CommandParams.Validated | pkg/config/command_params.go:66-109 | Parse as a function: the joined messages of the failed checks, or the built configuration; Parse is proved equal to it, and the lemmas below state what it returns |
| CommandParams.ProblemsAreTheFailedChecks | pkg/config/command_params.go:66-77 | each check's message is among the errors exactly when that check fails, and there is one error per failed check |
| CommandParams.ErrorNamesTheProblems | pkg/config/command_params.go:67-77 | the error mentions "-token" when the token is empty, "-domain" when the domain is empty, and "-type" and "AAAA" when the type is neither A nor AAAA |
| CommandParams.ValidatedKeepsAndDefaults | pkg/config/command_params.go:79-109 | on success, domain, token, type, proxied, interface and cache are copied; IPVersion is V6 exactly for "AAAA" and V4 exactly for "A"; a ttl of 0 or less becomes 1 and a positive one is kept; a timeout of 0 or less becomes 10 seconds; a positive one up to MaxInt64/10^9 is that many seconds, and a larger one wraps as an int64 Duration does (Text.Seconds) |
| CommandParams.EmptyCommandLine | pkg/config/command_params_test.go:73-78 | with every flag at its default (lines 53-60), the error is the token message then the domain message, and it mentions "-token" and "-domain" |
| CommandParams.TestCommandLines | pkg/config/command_params_test.go:18-62 | the minimal command line gives type A, 10 seconds, proxied, TTL 1 and V4; the full one gives AAAA, 200 seconds, TTL 300, V6 and interface wlp3s0 |
| Environment.FromEnvironment | pkg/config/environment.go:24-68 | no error exactly when TOKEN and DOMAIN are set and TYPE is "A" or "AAAA"; on an error, the zero CloudFlare and the messages joined by ";" in check order; otherwise the settings of Loaded |
| Environment.Loaded | pkg/config/environment.go:24-68 | FromEnvironment as a function: the joined messages of the failed checks, or the built settings; FromEnvironment is proved equal to it, and the lemmas below state what it returns |
| Environment.ProblemsAreTheFailedChecks | pkg/config/environment.go:25-39 | each variable's message is among the errors exactly when its check fails, and there is one error per failed check |
| Environment.ErrorNamesTheVariables | pkg/config/environment.go:26-39 | the error names TOKEN when it is unset, DOMAIN when it is unset, and TYPE and "AAAA" when TYPE is neither A nor AAAA |
| Environment.LoadedKeepsAndDefaults | pkg/config/environment.go:41-67 | on success, DOMAIN, TOKEN and TYPE are copied; a TIMEOUT that does not parse or is 0 or less gives 10 seconds; a positive one up to MaxInt64/10^9 is that many seconds, and a larger one wraps as an int64 Duration does (Text.Seconds); a TTL that does not parse or is 0 or less gives 1, and a positive one is kept; a PROXIED that does not parse gives true, and a parsed one is used |
| Environment.EmptyEnvironment | pkg/config/environment_test.go:63-68 | an empty environment fails with the TOKEN, DOMAIN and TYPE messages, in that order, joined by ";" |
| Environment.MinimalEnvironment | pkg/config/environment_test.go:18-33 | DOMAIN, TOKEN and TYPE=A alone give 10 seconds, proxied and TTL 1 |
| Environment.TestNumbers | pkg/config/environment_test.go:40-42 | Atoi reads "200" and "300" as 200 and 300 |
| Environment.ThreeDigits | pkg/config/environment_test.go:40-42 | a digit from 1 to 9 followed by two zeros reads as that many hundreds |
| Environment.OverflowingTimeout | pkg/config/environment.go:41-44 | a TIMEOUT of "99999999999999999999x" gives MaxInt64 seconds, not the default of 10, because Atoi reports the range error before the stray byte |
| Environment.FullEnvironment | pkg/config/environment_test.go:34-51 | TIMEOUT 200, TTL 300 and PROXIED "false" give 200 seconds, TTL 300 and not proxied |
| Environment.UnknownTypeEnvironment | pkg/config/environment_test.go:53-62 | TYPE "B" fails with the TYPE message alone, which names TYPE and AAAA |

## Left out

- HTTP and JSON: request construction, the bearer and content-type headers, JSON encoding and decoding, the `http.Client`, `NewClient` and its option functions. `send` is an oracle from the call to the reply observed, followed by the modelled decoding target and `checkError`.
- The encoding and request-creation failures in `send` (client.go:143-151). The oracle covers the transport and decode failures only.
- `checkError`'s reflection. The decoded value is a typed envelope, a map or another kind. The "field Errors is not of type []Error" branch cannot arise from a typed envelope.
- A reply whose `result` or `result_info` is JSON null or absent. Either leaves the Go pointer nil, and the client then dereferences it and panics. The envelope here always has both fields.
- JSON bodies are told apart only as far as `send` and `checkError` tell them apart: an object shaped like the envelope, any other object, a value that is not an object (null, array, string, number, bool), or text that is not JSON. For the other objects and for non-JSON text, json's error text is carried as given. Which fields make an object not fit the envelope, and the offsets in json's messages, are not modelled one by one.
- Cloudflare.UpdateRecordChecked: it decodes the PUT reply into the same `DNSResponse` the listings use, whose `result` is a list. A reply whose `result` is a single object is an `OtherObject` there and gives a decode error, as it would in Go with that target. A single-record envelope is not modelled.
- Text.Quote: `%q` is modelled for strings without quotes, backslashes or control characters. Go's escaping of those characters is not modelled.
- Cloudflare.ZoneKey: a domain without a dot is outside the contract (`requires '.' in domain`). Go's slice expression panics on it.
- The GetRecord lemmas assume that every page before the last comes back and announces a next page (`Reaches`). A run past page 2^63 - 1 cannot happen, because Go's page counter is an int.
- Resilience: real time, `time.After` and `select`. How each wait ends is an oracle. Nothing is claimed about elapsed time.
- Resilience: the request object and its context. The context's error is the oracle's value.
- Resilience: a response returned together with a transport error. The inner result is either a response or an error.
- Resilience.Retry.RoundTrip: its `steps` out-parameter is ghost. The attempt count is stated through `Run` and its lemmas.
- Go's `%d` of the attempt count and `%w`'s "%!w(<nil>)" are modelled. The rest of `fmt.Errorf` is not.
- `fmt.Errorf(strings.Join(...))` in both validators treats the joined text as a format string. None of the messages contains a `%`, so the text is unchanged and the model joins without formatting.
- The flag set itself: `flag.NewFlagSet`, `fs.Parse` with its error path (command_params.go:62-64), `ExitOnError` and `Usage`. Parse starts from the locals the flags filled.
- `os.Getenv` is a lookup in a map, with "" for an unset key. It cannot tell an unset variable from an empty one, and neither can Go.
- strconv: `Atoi` follows strconv on a 64-bit platform: one optional sign, then the digit loop of `ParseUint` in base 10, which reports a syntax error at the first byte that is not a digit and a range error at the first digit that overflows, whichever comes first, and clamps by the sign. `ParseBool` is modelled by its accepted spellings. Their error values (`*NumError`) are not modelled, because the code ignores Atoi's error and only tests ParseBool's for nil.
- The ip, cache and resolver packages and the two main programs are not part of this model.

## Findings

| source | as written | input that shows it | evidently intended | confidence | as-written member | corrected member |
|---|---|---|---|---|---|---|
| pkg/cloudflare/client.go:121 | `UpdateRecord` passes `nil` as `recv`, so `send` decodes the reply into an empty interface, and json stores a `map[string]interface{}` there. `checkError` then sees a map and fails with "received non-struct item: map" | any JSON object reply to the PUT, including `{"success": true, "errors": []}` and `{"success": true, "errors": [], "result": {"id": "r1"}}` | decode the reply into a `DNSResponse`, so that a successful update returns no error and a failed one reports the provider's errors | high (not executed) | Cloudflare.UpdateRecord, with Cloudflare.SendIntoNilRefuses | Cloudflare.UpdateRecordChecked |

=== FILE: cloudflare.dfy ===
/** The Cloudflare record client: zone resolution from the last two labels of a
    domain, the paged search for the one record of a name and type, the record
    update, and the translation of a provider envelope into an error.

    The HTTP exchange itself (request construction, bearer header, JSON
    encoding and decoding, the http.Client) is an oracle `server` that maps
    each issued call to what came back. */
module Cloudflare {
  import opened Text

  const BaseApi := "https://api.cloudflare.com/client/v4"
  const PerPage: nat := 50

  // ---------------------------------------------------------------------
  // Data shapes (record.go)

  /** Record types the program names; the Go type is a plain string. */
  const A := "A"
  const AAAA := "AAAA"
  const MX := "MX"
  const CNAME := "CNAME"
  const TXT := "TXT"

  datatype Record = Record(id: string, recordType: string, name: string, content: string)

  /** Go's `Record{}`, the "no candidate yet" sentinel of the search. */
  const ZeroRecord := Record("", "", "", "")

  /** A provider error; `errorChain` holds the causes it reports. */
  datatype ApiError = ApiError(code: int, message: string, errorChain: seq<ApiError>)

  /** A decoded `DNSResponse`: the envelope fields the client reads and the
      `result` list (records, or zones whose `id` is the zone id). */
  datatype DnsResponse = DnsResponse(success: bool, errors: seq<ApiError>, totalPages: Int64, result: seq<Record>)

  datatype UpdateRequest = UpdateRequest(name: string, recordType: string, content: string, proxied: bool, ttl: Int64)

  // ---------------------------------------------------------------------
  // The oracle: one call issued, one reply observed

  /** The three requests the client issues. */
  datatype Call =
    | ListZones(key: string)
    | ListRecords(zone: string, page: nat)
    | PutRecord(zone: string, id: string, request: UpdateRequest)

  /** The request URL, as `api` formats it: every call is under the API's
      zones path, and a zone's records sit under that zone. */
  function Url(c: Call): (r: string)
    ensures |BaseApi + "/zones"| < |r| && r[..|BaseApi + "/zones"|] == BaseApi + "/zones"
    ensures !c.ListZones? ==>
              var under := BaseApi + "/zones/" + c.zone + "/dns_records";
              |under| <= |r| && r[..|under|] == under
  {
    match c
    case ListZones(key) => BaseApi + "/zones?name=" + key
    case ListRecords(zone, page) =>
      BaseApi + "/zones/" + zone + "/dns_records?page=" + NatToString(page) + "&per_page=" + NatToString(PerPage)
    case PutRecord(zone, id, _) => BaseApi + "/zones/" + zone + "/dns_records/" + id
  }

  /** The JSON-encoded request body, if any. */
  function Payload(c: Call): Option<UpdateRequest>
  {
    if c.PutRecord? then Some(c.request) else None
  }

  /** A response body: a JSON object shaped like the envelope, a JSON value
      that is not an object, any other JSON object (one whose fields do not
      fit the envelope, with the error a `DNSResponse` target gets from
      encoding/json), or text that is not JSON, with json's syntax error. */
  datatype Body =
    | Json(envelope: DnsResponse)
    | NotObject(value: JsonValue)
    | OtherObject(reason: string)
    | NotJson(reason: string)

  /** The JSON values other than objects. */
  datatype JsonValue = JsonNull | JsonArray | JsonString | JsonNumber | JsonBool

  /** What `a.client.Do` produced: a body, or the transport's error text. */
  datatype Reply = Received(body: Body) | Failed(reason: string)

  /** Where `send` decodes the body: into a `DNSResponse`, or into the nil
      `interface{}` that UpdateRecord passes. */
  datatype Target = IntoEnvelope | IntoNil

  /** The value `checkError` inspects by reflection. */
  datatype Decoded = Struct(success: bool, errors: seq<ApiError>) | NonStruct(kind: string)

  function ZonesCall(domain: string): Call
    requires '.' in domain
  {
    ListZones(ZoneKey(domain))
  }

  // ---------------------------------------------------------------------
  // The errors the client returns, layer by layer as `%w` wraps them

  /** What checkError complains about. */
  datatype Report = NonStructItem(kind: string) | InResponse(errors: seq<ApiError>)

  datatype ClientError =
    | GetResponse(cause: string)
    | DecodeResponse(cause: string)
    | FromCloudflare(report: Report)
    | ZoneList(inner: ClientError)
    | NoMatchingZone(domain: string)
    | ZoneInformation(inner: ClientError)
    | DuplicateEntry(name: string, recordType: string)
    | NoRecord(name: string, recordType: string)

  /** The text `Error()` gives. */
  function Message(e: ClientError): string
    decreases e
  {
    match e
    case GetResponse(cause) => "could not get response: " + cause
    case DecodeResponse(cause) => "could not decode response: " + cause
    case FromCloudflare(report) => "error from CloudFlare: " + ReportText(report)
    case ZoneList(inner) => "could not get zone list: " + Message(inner)
    case NoMatchingZone(domain) => "could not find zone that matches domain " + Quote(domain)
    case ZoneInformation(inner) => "error getting zone information: " + Message(inner)
    case DuplicateEntry(name, recordType) => "found duplicate entry for " + Quote(name) + " and type " + Quote(recordType)
    case NoRecord(name, recordType) => "no record for " + Quote(name) + " of type " + recordType + " found"
  }

  function ReportText(r: Report): string
  {
    match r
    case NonStructItem(kind) => "received non-struct item: " + kind
    case InResponse(errs) => "error in the response" + Render(Lines(errs))
  }

  // ---------------------------------------------------------------------
  // checkError

  /** One ": [code] message" piece of the error text. */
  function Segment(code: int, message: string): string
  {
    ": [" + IntToString(code) + "] " + message
  }

  /** What checkError objects to, if anything. */
  function ErrorReport(v: Decoded): (r: Option<Report>)
    ensures r.None? <==> v.Struct? && (v.success || v.errors == [])
  {
    match v
    case NonStruct(kind) => Some(NonStructItem(kind))
    case Struct(success, errs) => if success || errs == [] then None else Some(InResponse(errs))
  }

  /** One line of the report: a code and a message. */
  datatype Line = Line(code: int, message: string)

  /** The lines of the report: each error gives its own line and then one line
      per direct chain entry, with the parent's code; entries of the chain are
      not looked into. */
  function Lines(errs: seq<ApiError>): seq<Line>
    decreases |errs|
  {
    if errs == [] then []
    else ErrorLines(errs[0]) + Lines(errs[1..])
  }

  function ErrorLines(e: ApiError): seq<Line>
  {
    [Line(e.code, e.message)] + ChainLines(e.code, e.errorChain)
  }

  function ChainLines(code: int, chain: seq<ApiError>): (ls: seq<Line>)
    ensures |ls| == |chain|
  {
    seq(|chain|, k requires 0 <= k < |chain| => Line(code, chain[k].message))
  }

  function Render(lines: seq<Line>): string
    decreases |lines|
  {
    if lines == [] then "" else Segment(lines[0].code, lines[0].message) + Render(lines[1..])
  }

  /** checkError (client.go): no error when the envelope reports success, none
      either when it reports failure with an empty error list, otherwise
      "error in the response" followed by every line in order. */
  method CheckError(v: Decoded) returns (err: Option<string>)
    ensures err.None? <==> ErrorReport(v).None?
    ensures err.Some? ==> err.value == ReportText(ErrorReport(v).value)
  {
    if v.NonStruct? {
      return Some("received non-struct item: " + v.kind);
    }
    if v.success {
      return None;
    }
    var errs := v.errors;
    if |errs| == 0 {
      return None;
    }
    var text := "";
    var i := 0;
    while i < |errs|
      invariant 0 <= i <= |errs|
      invariant text == Render(Lines(errs[..i]))
    {
      var e := errs[i];
      RenderLinesStep(errs, i);
      text := text + Segment(e.code, e.message);
      text := AppendChain(text, e);
      i := i + 1;
    }
    assert errs[..i] == errs;
    err := Some("error in the response" + text);
  }

  /** checkError's inner loop: one piece per direct chain entry of `e`. */
  method AppendChain(text: string, e: ApiError) returns (r: string)
    ensures r == text + Render(ChainLines(e.code, e.errorChain))
  {
    r := text;
    var j := 0;
    while j < |e.errorChain|
      invariant 0 <= j <= |e.errorChain|
      invariant r == text + Render(ChainLines(e.code, e.errorChain[..j]))
    {
      RenderChainStep(e.code, e.errorChain, j);
      AppendAssoc(text, Render(ChainLines(e.code, e.errorChain[..j])), Segment(e.code, e.errorChain[j].message));
      r := r + Segment(e.code, e.errorChain[j].message);
      j := j + 1;
    }
    assert e.errorChain[..j] == e.errorChain;
  }

  lemma {:induction false} RenderAppend(a: seq<Line>, b: seq<Line>)
    ensures Render(a + b) == Render(a) + Render(b)
    decreases |a|
  {
    if a != [] {
      assert (a + b)[0] == a[0];
      assert (a + b)[1..] == a[1..] + b;
      RenderAppend(a[1..], b);
      AppendAssoc(Segment(a[0].code, a[0].message), Render(a[1..]), Render(b));
    } else {
      assert a + b == b;
    }
  }

  lemma RenderSingle(l: Line)
    ensures Render([l]) == Segment(l.code, l.message)
  {
    assert [l][1..] == [];
  }

  /** One more chain entry appends one more piece. */
  lemma RenderChainStep(code: int, chain: seq<ApiError>, j: nat)
    requires j < |chain|
    ensures Render(ChainLines(code, chain[..j + 1])) == Render(ChainLines(code, chain[..j])) + Segment(code, chain[j].message)
  {
    var init, last := ChainLines(code, chain[..j]), Line(code, chain[j].message);
    assert ChainLines(code, chain[..j + 1]) == init + [last] by {
      forall k | 0 <= k <= j ensures ChainLines(code, chain[..j + 1])[k] == (init + [last])[k] {
        if k < j {
          assert chain[..j + 1][k] == chain[..j][k];
        }
      }
    }
    RenderAppend(init, [last]);
    RenderSingle(last);
  }

  /** One more error appends its own piece and then its chain's pieces. */
  lemma RenderLinesStep(errs: seq<ApiError>, i: nat)
    requires i < |errs|
    ensures var e := errs[i];
            Render(Lines(errs[..i + 1])) ==
              Render(Lines(errs[..i])) + Segment(e.code, e.message) + Render(ChainLines(e.code, e.errorChain))
  {
    var e := errs[i];
    assert errs[..i + 1] == errs[..i] + [e];
    LinesAppend(errs[..i], e);
    RenderAppend(Lines(errs[..i]), ErrorLines(e));
    RenderAppend([Line(e.code, e.message)], ChainLines(e.code, e.errorChain));
    RenderSingle(Line(e.code, e.message));
    AppendAssoc(Render(Lines(errs[..i])), Segment(e.code, e.message), Render(ChainLines(e.code, e.errorChain)));
  }

  lemma {:induction false} LinesAppend(a: seq<ApiError>, e: ApiError)
    ensures Lines(a + [e]) == Lines(a) + ErrorLines(e)
    decreases |a|
  {
    if a == [] {
      assert [e][1..] == [];
    } else {
      assert (a + [e])[0] == a[0];
      assert (a + [e])[1..] == a[1..] + [e];
      LinesAppend(a[1..], e);
      AppendAssoc(ErrorLines(a[0]), Lines(a[1..]), ErrorLines(e));
    }
  }

  lemma {:induction false} RenderContains(lines: seq<Line>, l: Line)
    requires l in lines
    ensures Contains(Render(lines), Segment(l.code, l.message))
    decreases |lines|
  {
    var head := Segment(lines[0].code, lines[0].message);
    assert Render(lines) == head + Render(lines[1..]);
    if lines[0] == l {
      ContainsSelf(head);
      ContainsLeft(head, Render(lines[1..]), head);
    } else {
      RenderContains(lines[1..], l);
      ContainsRight(head, Render(lines[1..]), Segment(l.code, l.message));
    }
  }

  lemma {:induction false} LinesContain(errs: seq<ApiError>, k: nat)
    requires k < |errs|
    ensures Line(errs[k].code, errs[k].message) in Lines(errs)
    ensures forall j :: 0 <= j < |errs[k].errorChain| ==> Line(errs[k].code, errs[k].errorChain[j].message) in Lines(errs)
    decreases |errs|
  {
    if k == 0 {
      var e := errs[0];
      assert Lines(errs) == ErrorLines(e) + Lines(errs[1..]);
      assert ErrorLines(e)[0] == Line(e.code, e.message);
      forall j | 0 <= j < |e.errorChain| ensures Line(e.code, e.errorChain[j].message) in Lines(errs) {
        assert ErrorLines(e)[1 + j] == ChainLines(e.code, e.errorChain)[j];
      }
    } else {
      LinesContain(errs[1..], k - 1);
      assert errs[1..][k - 1] == errs[k];
    }
  }

  /** Every error's own message and every message of its direct chain appear
      in the report, under the error's code. */
  lemma ReportMentionsEveryError(errs: seq<ApiError>, k: nat)
    requires k < |errs|
    ensures Contains(ReportText(InResponse(errs)), Segment(errs[k].code, errs[k].message))
    ensures forall j :: 0 <= j < |errs[k].errorChain| ==>
              Contains(ReportText(InResponse(errs)), Segment(errs[k].code, errs[k].errorChain[j].message))
  {
    LinesContain(errs, k);
    var e := errs[k];
    RenderContains(Lines(errs), Line(e.code, e.message));
    ContainsRight("error in the response", Render(Lines(errs)), Segment(e.code, e.message));
    forall j | 0 <= j < |e.errorChain|
      ensures Contains(ReportText(InResponse(errs)), Segment(e.code, e.errorChain[j].message))
    {
      RenderContains(Lines(errs), Line(e.code, e.errorChain[j].message));
      ContainsRight("error in the response", Render(Lines(errs)), Segment(e.code, e.errorChain[j].message));
    }
  }

  /** The error list with every chain entry reduced to its message: code 0
      and no chain of its own. */
  function Pruned(errs: seq<ApiError>): (r: seq<ApiError>)
    ensures |r| == |errs|
  {
    seq(|errs|, k requires 0 <= k < |errs| =>
      ApiError(errs[k].code, errs[k].message,
        seq(|errs[k].errorChain|, j requires 0 <= j < |errs[k].errorChain| => ApiError(0, errs[k].errorChain[j].message, []))))
  }

  /** The report does not depend on the codes of chain entries nor on their own
      chains: only direct entries are rendered, under the parent's code. */
  lemma {:induction false} ReportIgnoresNestedChains(errs: seq<ApiError>)
    ensures ReportText(InResponse(errs)) == ReportText(InResponse(Pruned(errs)))
  {
    LinesPruned(errs);
  }

  lemma {:induction false} LinesPruned(errs: seq<ApiError>)
    ensures Lines(errs) == Lines(Pruned(errs))
    decreases |errs|
  {
    if errs != [] {
      LinesPruned(errs[1..]);
      assert Pruned(errs)[1..] == Pruned(errs[1..]);
      assert ErrorLines(errs[0]) == ErrorLines(Pruned(errs)[0]);
    }
  }

  // ---------------------------------------------------------------------
  // send, after the exchange

  function Decode(env: DnsResponse, target: Target): Decoded
  {
    match target
    case IntoEnvelope => Struct(env.success, env.errors)
    // encoding/json stores a JSON object as a map in a nil interface{}
    case IntoNil => NonStruct("map")
  }

  /** encoding/json on a value that is not an object: the reflect kind that
      checkError then sees, or the decoder's own error. A null sets the
      interface `recv` to nil, whatever it held, so checkError sees the
      invalid kind; any other value is refused by a `DNSResponse` target and
      stored in a nil interface as []interface{}, string, float64 or bool. */
  function DecodeNonObject(value: JsonValue, target: Target): Result<string, string>
  {
    if value == JsonNull then Ok("invalid")
    else if target == IntoEnvelope then Err("json: cannot unmarshal " + JsonName(value) + " into Go value of type cloudflare.DNSResponse")
    else Ok(GoKind(value))
  }

  /** How encoding/json names a JSON value in a type error. */
  function JsonName(value: JsonValue): string
  {
    match value
    case JsonNull => "null"
    case JsonArray => "array"
    case JsonString => "string"
    case JsonNumber => "number"
    case JsonBool => "bool"
  }

  /** The reflect kind of the value encoding/json stores in a nil interface. */
  function GoKind(value: JsonValue): string
  {
    match value
    case JsonNull => "invalid"
    case JsonArray => "slice"
    case JsonString => "string"
    case JsonNumber => "float64"
    case JsonBool => "bool"
  }

  /** send (client.go), from the observed reply on: decode into the target,
      then checkError. */
  function Send(reply: Reply, target: Target): (r: Result<DnsResponse, ClientError>)
    ensures r.Ok? <==> (target == IntoEnvelope && reply.Received? && reply.body.Json? &&
                        (reply.body.envelope.success || reply.body.envelope.errors == []))
    ensures r.Ok? ==> reply == Received(Json(r.value))
  {
    match reply
    case Failed(reason) => Err(GetResponse(reason))
    case Received(NotJson(reason)) => Err(DecodeResponse(reason))
    case Received(OtherObject(reason)) =>
      (match target
       case IntoEnvelope => Err(DecodeResponse(reason))
       // any JSON object decodes into a nil interface{} as a map
       case IntoNil => Err(FromCloudflare(NonStructItem("map"))))
    case Received(NotObject(value)) =>
      (match DecodeNonObject(value, target)
       case Err(reason) => Err(DecodeResponse(reason))
       case Ok(kind) => Err(FromCloudflare(NonStructItem(kind))))
    case Received(Json(env)) =>
      match ErrorReport(Decode(env, target))
      case Some(report) => Err(FromCloudflare(report))
      case None => Ok(env)
  }

  /** The update, decoding into the nil interface, refuses every JSON object
      reply, whether or not it is shaped like the envelope and whatever it
      says about success: json stores it as a map, and checkError rejects
      the map. Text that is not JSON fails in the decoder instead. */
  lemma SendIntoNilRefuses(reply: Reply)
    requires reply.Received? && (reply.body.Json? || reply.body.OtherObject?)
    ensures Send(reply, IntoNil) == Err(FromCloudflare(NonStructItem("map")))
    ensures Message(Send(reply, IntoNil).error) ==
              "error from CloudFlare: " + "received non-struct item: " + "map"
  {
    AppendAssoc("error from CloudFlare: ", "received non-struct item: ", "map");
  }

  /** An object that does not fit the envelope fails a call expecting the
      envelope in the decoder, and text that is not JSON fails either call
      there, with json's own error text. */
  lemma SendRefusedByDecoder(reply: Reply, target: Target)
    requires reply.Received? && (reply.body.NotJson? || (reply.body.OtherObject? && target == IntoEnvelope))
    ensures Send(reply, target) == Err(DecodeResponse(reply.body.reason))
    ensures Message(Send(reply, target).error) == "could not decode response: " + reply.body.reason
  {
  }

  /** A JSON null fails either call in checkError with the invalid kind. */
  lemma SendNull(target: Target)
    ensures Send(Received(NotObject(JsonNull)), target) == Err(FromCloudflare(NonStructItem("invalid")))
    ensures Message(FromCloudflare(NonStructItem("invalid"))) ==
              "error from CloudFlare: " + "received non-struct item: " + "invalid"
  {
    AppendAssoc("error from CloudFlare: ", "received non-struct item: ", "invalid");
  }

  /** Any other value that is not an object fails a call expecting the
      envelope in the decoder, with json's type error naming the value. */
  lemma SendNonObjectIntoEnvelope(value: JsonValue)
    requires value != JsonNull
    ensures Send(Received(NotObject(value)), IntoEnvelope) ==
              Err(DecodeResponse("json: cannot unmarshal " + JsonName(value) + " into Go value of type cloudflare.DNSResponse"))
    ensures Send(Received(NotObject(value)), IntoEnvelope).error.cause != "" &&
            Message(Send(Received(NotObject(value)), IntoEnvelope).error) ==
              "could not decode response: " + Send(Received(NotObject(value)), IntoEnvelope).error.cause
  {
  }

  /** The update, decoding into the nil interface, fails such a value in
      checkError with the kind the value is stored as. */
  lemma SendNonObjectIntoNil(value: JsonValue)
    ensures Send(Received(NotObject(value)), IntoNil) == Err(FromCloudflare(NonStructItem(GoKind(value))))
    ensures Message(Send(Received(NotObject(JsonArray)), IntoNil).error) ==
              "error from CloudFlare: " + "received non-struct item: " + "slice"
    ensures Message(Send(Received(NotObject(JsonNumber)), IntoNil).error) ==
              "error from CloudFlare: " + "received non-struct item: " + "float64"
  {
    AppendAssoc("error from CloudFlare: ", "received non-struct item: ", "slice");
    AppendAssoc("error from CloudFlare: ", "received non-struct item: ", "float64");
  }

  function ErrorOf<T, E>(r: Result<T, E>): Option<E>
  {
    if r.Ok? then None else Some(r.error)
  }

  // ---------------------------------------------------------------------
  // getZone

  /** The zone lookup key: the last two dot-separated labels of the domain.
      A domain without a dot makes the Go slice expression panic. */
  function ZoneKey(domain: string): string
    requires '.' in domain
  {
    SplitDotsPieces(domain);
    var parts := SplitDots(domain);
    Join(parts[|parts| - 2..], ".")
  }

  /** For any domain written as its labels, the key is the last two of them. */
  lemma ZoneKeyIsLastTwoLabels(labels: seq<string>)
    requires |labels| >= 2
    requires forall k :: 0 <= k < |labels| ==> '.' !in labels[k]
    ensures '.' in Join(labels, ".")
    ensures ZoneKey(Join(labels, ".")) == labels[|labels| - 2] + "." + labels[|labels| - 1]
  {
    SplitDotsJoin(labels);
    var last := labels[|labels| - 2..];
    assert Join(last, ".") == last[0] + "." + Join(last[1..], ".");
  }

  /** Both "home.nenad.dev" and "nenad.dev" look up the zone "nenad.dev". */
  lemma ZoneKeyExamples()
    ensures ZoneKey("home.nenad.dev") == "nenad.dev"
    ensures ZoneKey("nenad.dev") == "nenad.dev"
  {
    ZoneKeyIsLastTwoLabels(["home", "nenad", "dev"]);
    assert Join(["home", "nenad", "dev"], ".") == "home.nenad.dev";
    ZoneKeyIsLastTwoLabels(["nenad", "dev"]);
    assert Join(["nenad", "dev"], ".") == "nenad.dev";
  }

  /** getZone (client.go): the id of the first zone listed for the key. */
  function GetZone(server: Call -> Reply, domain: string): Result<string, ClientError>
    requires '.' in domain
  {
    match Send(server(ZonesCall(domain)), IntoEnvelope)
    case Err(e) => Err(ZoneList(e))
    case Ok(resp) =>
      if |resp.result| > 0 then Ok(resp.result[0].id)
      else Err(NoMatchingZone(domain))
  }

  /** The zone is the id of the first zone listed, when the listing came back
      with at least one; a failed listing is wrapped, an empty one names the
      domain. */
  lemma GetZoneOutcomes(server: Call -> Reply, domain: string)
    requires '.' in domain
    ensures var reply := server(ZonesCall(domain));
            GetZone(server, domain).Ok? <==>
              (reply.Received? && reply.body.Json? && |reply.body.envelope.result| > 0 &&
               (reply.body.envelope.success || reply.body.envelope.errors == []))
    ensures GetZone(server, domain).Ok? ==> GetZone(server, domain).value == server(ZonesCall(domain)).body.envelope.result[0].id
    ensures var sent := Send(server(ZonesCall(domain)), IntoEnvelope);
            sent.Err? ==> GetZone(server, domain) == Err(ZoneList(sent.error))
    ensures var reply := server(ZonesCall(domain));
            (reply.Received? && reply.body.Json? && reply.body.envelope.result == [] &&
             (reply.body.envelope.success || reply.body.envelope.errors == [])) ==>
              GetZone(server, domain) == Err(NoMatchingZone(domain))
  {
  }

  // ---------------------------------------------------------------------
  // GetRecord

  predicate IsMatch(r: Record, name: string, recordType: string)
  {
    r.name == name && r.recordType == recordType
  }

  /** How the scan of one page ends: still holding a candidate (or the zero
      record), or on a second match. */
  datatype PageScan = Holding(held: Record) | Duplicate(second: Record)

  /** The inner loop of GetRecord over one page's records. */
  function ScanPage(records: seq<Record>, name: string, recordType: string, held: Record): PageScan
    decreases |records|
  {
    if records == [] then Holding(held)
    else if IsMatch(records[0], name, recordType) then
      if held != ZeroRecord then Duplicate(records[0])
      else ScanPage(records[1..], name, recordType, records[0])
    else ScanPage(records[1..], name, recordType, held)
  }

  /** What a search returns, and the calls it issued. */
  datatype Lookup = Lookup(rec: Record, err: Option<ClientError>, calls: seq<Call>)

  /** The outcome of asking for each record page of a zone: send's reply after
      decoding and checkError. */
  type Pages = nat -> Result<DnsResponse, ClientError>

  /** The record pages as the server answers them for `zone`. */
  function PagesOf(server: Call -> Reply, zone: string): Pages
  {
    (p: nat) => Send(server(ListRecords(zone, p)), IntoEnvelope)
  }

  /** The outer loop of GetRecord from `page` on, holding `held`. Go's page
      counter is an int and `TotalPages` an int, so the loop cannot go past
      the largest int. */
  function ScanFrom(pages: Pages, zone: string, name: string, recordType: string, page: int, held: Record): Lookup
    requires 1 <= page <= MaxInt64
    decreases MaxInt64 - page
  {
    var call := ListRecords(zone, page);
    match pages(page)
    case Err(e) => Lookup(held, Some(e), [call])
    case Ok(resp) =>
      match ScanPage(resp.result, name, recordType, held)
      case Duplicate(r) => Lookup(ZeroRecord, Some(DuplicateEntry(r.name, r.recordType)), [call])
      case Holding(h) =>
        if page >= resp.totalPages then
          if h == ZeroRecord then Lookup(h, Some(NoRecord(name, recordType)), [call])
          else Lookup(h, None, [call])
        else
          var rest := ScanFrom(pages, zone, name, recordType, page + 1, h);
          Lookup(rest.rec, rest.err, [call] + rest.calls)
  }

  /** GetRecord as a function: the zone first, then the pages from 1. */
  function GetRecordSpec(server: Call -> Reply, name: string, recordType: string): Lookup
    requires '.' in name
  {
    match GetZone(server, name)
    case Err(e) => Lookup(ZeroRecord, Some(ZoneInformation(e)), [ZonesCall(name)])
    case Ok(zone) =>
      var l := ScanFrom(PagesOf(server, zone), zone, name, recordType, 1, ZeroRecord);
      Lookup(l.rec, l.err, [ZonesCall(name)] + l.calls)
  }

  /** The scan of a page keeps its candidate or takes a matching record. */
  lemma {:induction false} ScanPageHoldsMatch(records: seq<Record>, name: string, recordType: string, held: Record)
    requires held == ZeroRecord || IsMatch(held, name, recordType)
    ensures var s := ScanPage(records, name, recordType, held);
            s.Holding? ==> s.held == ZeroRecord || IsMatch(s.held, name, recordType)
    decreases |records|
  {
    if records != [] {
      if IsMatch(records[0], name, recordType) {
        if held == ZeroRecord {
          ScanPageHoldsMatch(records[1..], name, recordType, records[0]);
        }
      } else {
        ScanPageHoldsMatch(records[1..], name, recordType, held);
      }
    }
  }

  /** A scan that ends without an error ends on a matching record. */
  lemma {:induction false} ScanFromMatch(pages: Pages, zone: string, name: string, recordType: string, page: int, held: Record)
    requires 1 <= page <= MaxInt64
    requires held == ZeroRecord || IsMatch(held, name, recordType)
    ensures var l := ScanFrom(pages, zone, name, recordType, page, held);
            l.err.None? ==> IsMatch(l.rec, name, recordType)
    decreases MaxInt64 - page
  {
    if pages(page).Ok? {
      var resp := pages(page).value;
      ScanPageHoldsMatch(resp.result, name, recordType, held);
      var s := ScanPage(resp.result, name, recordType, held);
      if s.Holding? && page < resp.totalPages {
        ScanFromMatch(pages, zone, name, recordType, page + 1, s.held);
      }
    }
  }

  /** Whenever GetRecord returns no error, the record it returns has the
      name and type asked for, so it is not the zero record. */
  lemma GetRecordReturnsMatch(server: Call -> Reply, name: string, recordType: string)
    requires '.' in name
    ensures var l := GetRecordSpec(server, name, recordType);
            l.err.None? ==> IsMatch(l.rec, name, recordType) && l.rec != ZeroRecord
  {
    if GetZone(server, name).Ok? {
      var zone := GetZone(server, name).value;
      ScanFromMatch(PagesOf(server, zone), zone, name, recordType, 1, ZeroRecord);
    }
  }

  /** GetRecord (client.go): resolve the zone, then page through its records
      holding at most one match. `calls` lists the calls issued, in order. */
  method GetRecord(server: Call -> Reply, name: string, recordType: string)
    returns (rec: Record, err: Option<ClientError>, ghost calls: seq<Call>)
    requires '.' in name
    ensures rec == GetRecordSpec(server, name, recordType).rec && err == GetRecordSpec(server, name, recordType).err
    ensures calls == GetRecordSpec(server, name, recordType).calls
  {
    var page := 1;
    rec := ZeroRecord;
    calls := [ZonesCall(name)];
    var zoneResult := GetZone(server, name);
    if zoneResult.Err? {
      err := Some(ZoneInformation(zoneResult.error));
      return;
    }
    var zone := zoneResult.value;
    ghost var pages := PagesOf(server, zone);
    while true
      invariant 1 <= page <= MaxInt64
      invariant var l := ScanFrom(pages, zone, name, recordType, page, rec);
                GetRecordSpec(server, name, recordType) == Lookup(l.rec, l.err, calls + l.calls)
      decreases MaxInt64 - page
    {
      var call := ListRecords(zone, page);
      ghost var held := rec;
      ghost var before := calls;
      calls := calls + [call];
      var sent := Send(server(call), IntoEnvelope);
      assert sent == pages(page);
      if sent.Err? {
        err := Some(sent.error);
        return;
      }
      var resp := sent.value;
      var i := 0;
      while i < |resp.result|
        invariant 0 <= i <= |resp.result|
        invariant ScanPage(resp.result[i..], name, recordType, rec) == ScanPage(resp.result, name, recordType, held)
      {
        var r := resp.result[i];
        assert resp.result[i..][1..] == resp.result[i + 1..];
        if r.name == name && r.recordType == recordType {
          if rec != ZeroRecord {
            rec, err := ZeroRecord, Some(DuplicateEntry(r.name, r.recordType));
            return;
          }
          rec := r;
        }
        i := i + 1;
      }
      if page >= resp.totalPages {
        if rec == ZeroRecord {
          err := Some(NoRecord(name, recordType));
          return;
        }
        err := None;
        return;
      }
      assert before + ([call] + ScanFrom(pages, zone, name, recordType, page + 1, rec).calls)
          == calls + ScanFrom(pages, zone, name, recordType, page + 1, rec).calls;
      page := page + 1;
    }
  }

  // ---------------------------------------------------------------------
  // The search against the listing it sees

  /** Page `p` came back and announces more pages after it. */
  predicate Continues(pages: Pages, p: nat)
  {
    pages(p).Ok? && p < pages(p).value.totalPages
  }

  /** Pages 1 to n - 1 all came back and each announced a next page, so the
      search asks for page n. */
  predicate Reaches(pages: Pages, n: nat)
  {
    1 <= n && forall q :: 1 <= q < n ==> Continues(pages, q)
  }

  function PageRecords(pages: Pages, p: nat): seq<Record>
  {
    if pages(p).Ok? then pages(p).value.result else []
  }

  /** The records of pages 1 to n, in page-then-listing order. */
  function Listing(pages: Pages, n: nat): seq<Record>
  {
    if n == 0 then [] else Listing(pages, n - 1) + PageRecords(pages, n)
  }

  /** The records that match, in order. */
  function Matches(records: seq<Record>, name: string, recordType: string): seq<Record>
    decreases |records|
  {
    if records == [] then []
    else (if IsMatch(records[0], name, recordType) then [records[0]] else []) + Matches(records[1..], name, recordType)
  }

  /** The candidate held after seeing at most one match. */
  function HeldOf(ms: seq<Record>): Record
  {
    if ms == [] then ZeroRecord else ms[0]
  }

  /** The record pages from `from` to `to`, in order. */
  function PageCalls(zone: string, from: nat, to: nat): (cs: seq<Call>)
    requires from <= to + 1
    ensures |cs| == to + 1 - from
    ensures forall k :: 0 <= k < |cs| ==> cs[k] == ListRecords(zone, from + k)
  {
    seq(to + 1 - from, k requires 0 <= k < to + 1 - from => ListRecords(zone, from + k))
  }

  lemma {:induction false} MatchesAppend(a: seq<Record>, b: seq<Record>, name: string, recordType: string)
    ensures Matches(a + b, name, recordType) == Matches(a, name, recordType) + Matches(b, name, recordType)
    decreases |a|
  {
    if a != [] {
      assert (a + b)[0] == a[0];
      assert (a + b)[1..] == a[1..] + b;
      MatchesAppend(a[1..], b, name, recordType);
      AppendAssoc(if IsMatch(a[0], name, recordType) then [a[0]] else [], Matches(a[1..], name, recordType), Matches(b, name, recordType));
    } else {
      assert a + b == b;
    }
  }

  /** The matching records of pages 1 to n, page by page. */
  function Seen(pages: Pages, name: string, recordType: string, n: nat): seq<Record>
  {
    if n == 0 then [] else Seen(pages, name, recordType, n - 1) + Matches(PageRecords(pages, n), name, recordType)
  }

  /** Matches keeps exactly the matching records, in order. */
  lemma {:induction false} MatchesAllMatch(records: seq<Record>, name: string, recordType: string)
    ensures forall k :: 0 <= k < |Matches(records, name, recordType)| ==> IsMatch(Matches(records, name, recordType)[k], name, recordType)
    ensures forall r :: r in records && IsMatch(r, name, recordType) ==> r in Matches(records, name, recordType)
    decreases |records|
  {
    if records != [] {
      MatchesAllMatch(records[1..], name, recordType);
      var head := if IsMatch(records[0], name, recordType) then [records[0]] else [];
      var ms := Matches(records, name, recordType);
      assert ms == head + Matches(records[1..], name, recordType);
      forall r | r in records && IsMatch(r, name, recordType) ensures r in ms {
        if r != records[0] {
          assert r in records[1..] by {
            assert records == [records[0]] + records[1..];
          }
        }
      }
    }
  }

  lemma {:induction false} SeenAllMatch(pages: Pages, name: string, recordType: string, n: nat)
    ensures forall k :: 0 <= k < |Seen(pages, name, recordType, n)| ==> IsMatch(Seen(pages, name, recordType, n)[k], name, recordType)
  {
    if n > 0 {
      SeenAllMatch(pages, name, recordType, n - 1);
      MatchesAllMatch(PageRecords(pages, n), name, recordType);
      var prior := Seen(pages, name, recordType, n - 1);
      var page := Matches(PageRecords(pages, n), name, recordType);
      forall k | 0 <= k < |prior + page| ensures IsMatch((prior + page)[k], name, recordType) {
        if k >= |prior| {
          assert (prior + page)[k] == page[k - |prior|];
        }
      }
    }
  }

  /** They are the matching records of the listing of pages 1 to n, in order. */
  lemma {:induction false} SeenIsMatchesOfListing(pages: Pages, name: string, recordType: string, n: nat)
    ensures Seen(pages, name, recordType, n) == Matches(Listing(pages, n), name, recordType)
  {
    if n > 0 {
      SeenIsMatchesOfListing(pages, name, recordType, n - 1);
      MatchesAppend(Listing(pages, n - 1), PageRecords(pages, n), name, recordType);
    }
  }

  lemma {:induction false} SeenGrows(pages: Pages, name: string, recordType: string, a: nat, b: nat)
    requires a <= b
    ensures |Seen(pages, name, recordType, a)| <= |Seen(pages, name, recordType, b)|
    decreases b - a
  {
    if a < b {
      SeenGrows(pages, name, recordType, a, b - 1);
    }
  }

  /** Scanning a page while holding the single earlier match (or none) holds
      the single match of all seen so far, or stops on the second one. */
  lemma {:induction false} ScanPageMatches(records: seq<Record>, name: string, recordType: string, prior: seq<Record>)
    requires name != ""
    requires |prior| <= 1
    requires prior != [] ==> IsMatch(prior[0], name, recordType)
    ensures var all := prior + Matches(records, name, recordType);
            ScanPage(records, name, recordType, HeldOf(prior)) ==
              if |all| <= 1 then Holding(HeldOf(all)) else Duplicate(all[1])
    decreases |records|
  {
    if records != [] {
      var r := records[0];
      var rest := Matches(records[1..], name, recordType);
      if IsMatch(r, name, recordType) {
        assert Matches(records, name, recordType) == [r] + rest;
        if |prior| == 1 {
          assert prior[0].name == name;
          assert HeldOf(prior) != ZeroRecord;
        } else {
          assert prior + [r] + rest == [r] + rest;
          ScanPageMatches(records[1..], name, recordType, [r]);
        }
      } else {
        assert Matches(records, name, recordType) == rest;
        ScanPageMatches(records[1..], name, recordType, prior);
      }
    }
  }

  /** The search from page p on, holding what pages 1 to p - 1 matched (an
      empty search outside the pages an int can number). */
  function SearchFrom(pages: Pages, zone: string, name: string, recordType: string, p: int): Lookup
  {
    if 1 <= p <= MaxInt64 then ScanFrom(pages, zone, name, recordType, p, HeldOf(Seen(pages, name, recordType, p - 1)))
    else Lookup(ZeroRecord, None, [])
  }

  /** The search at page q asks for page q and then goes on as the search at
      page q + 1. */
  predicate HandsOver(search: int -> Lookup, zone: string, q: nat)
  {
    search(q) == Lookup(search(q + 1).rec, search(q + 1).err, [ListRecords(zone, q)] + search(q + 1).calls)
  }

  /** One page that continues, at most one match so far: the search moves on
      to the next page holding the single match of the listing so far. */
  lemma ScanStep(pages: Pages, zone: string, name: string, recordType: string, p: nat)
    requires name != ""
    requires 1 <= p < MaxInt64
    requires Continues(pages, p)
    requires |Seen(pages, name, recordType, p)| <= 1
    ensures var next := SearchFrom(pages, zone, name, recordType, p + 1);
            SearchFrom(pages, zone, name, recordType, p) == Lookup(next.rec, next.err, [ListRecords(zone, p)] + next.calls)
  {
    var prior := Seen(pages, name, recordType, p - 1);
    var page := PageRecords(pages, p);
    SeenAllMatch(pages, name, recordType, p - 1);
    ScanPageMatches(page, name, recordType, prior);
  }

  /** While pages continue and at most one match has been seen, the search
      moves from page p to page n holding the single match of pages 1 to
      n - 1, having asked for pages p to n - 1 in order. */
  lemma ScanAdvances(pages: Pages, zone: string, name: string, recordType: string, p: nat, n: nat)
    requires name != ""
    requires 1 <= p <= n <= MaxInt64
    requires forall q :: p <= q < n ==> Continues(pages, q)
    requires |Seen(pages, name, recordType, n - 1)| <= 1
    ensures var there := SearchFrom(pages, zone, name, recordType, n);
            SearchFrom(pages, zone, name, recordType, p) == Lookup(there.rec, there.err, PageCalls(zone, p, n - 1) + there.calls)
  {
    var search := q => SearchFrom(pages, zone, name, recordType, q);
    AllHandOver(pages, zone, name, recordType, search, p, n);
    Chain(search, zone, p, n);
  }

  /** Every page from p to n - 1 hands the search over to the next. */
  lemma AllHandOver(pages: Pages, zone: string, name: string, recordType: string, search: int -> Lookup, p: nat, n: nat)
    requires name != ""
    requires 1 <= p <= n <= MaxInt64
    requires forall q :: p <= q < n ==> Continues(pages, q)
    requires |Seen(pages, name, recordType, n - 1)| <= 1
    requires forall q :: search(q) == SearchFrom(pages, zone, name, recordType, q)
    ensures forall q :: p <= q < n ==> HandsOver(search, zone, q)
  {
    forall q | p <= q < n
      ensures HandsOver(search, zone, q)
    {
      SeenGrows(pages, name, recordType, q, n - 1);
      ScanStep(pages, zone, name, recordType, q);
    }
  }

  /** A run of searches, each handing over to the next, asks for the pages in
      order. */
  lemma {:induction false} Chain(search: int -> Lookup, zone: string, p: nat, n: nat)
    requires 1 <= p <= n
    requires forall q :: p <= q < n ==> HandsOver(search, zone, q)
    ensures search(p) == Lookup(search(n).rec, search(n).err, PageCalls(zone, p, n - 1) + search(n).calls)
    decreases n - p
  {
    if p < n {
      Chain(search, zone, p + 1, n);
      assert HandsOver(search, zone, p);
      PageCallsCons(zone, p, n - 1);
      LookupChain(search(p), search(p + 1), search(n), ListRecords(zone, p), PageCalls(zone, p + 1, n - 1), PageCalls(zone, p, n - 1));
    } else {
      assert PageCalls(zone, p, n - 1) == [];
      EmptyAppend(search(n).calls);
    }
  }

  /** Two steps of a search compose: the calls of the first come first. */
  lemma LookupChain(here: Lookup, next: Lookup, there: Lookup, call: Call, between: seq<Call>, all: seq<Call>)
    requires here == Lookup(next.rec, next.err, [call] + next.calls)
    requires next == Lookup(there.rec, there.err, between + there.calls)
    requires all == [call] + between
    ensures here == Lookup(there.rec, there.err, all + there.calls)
  {
    AppendAssoc([call], between, there.calls);
  }

  lemma PageCallsCons(zone: string, from: nat, to: nat)
    requires from <= to
    ensures PageCalls(zone, from, to) == [ListRecords(zone, from)] + PageCalls(zone, from + 1, to)
  {
    var cs := [ListRecords(zone, from)] + PageCalls(zone, from + 1, to);
    forall k | 0 <= k < |cs| ensures cs[k] == PageCalls(zone, from, to)[k] {
      if k > 0 {
        assert cs[k] == PageCalls(zone, from + 1, to)[k - 1];
      }
    }
  }

  lemma PageCallsSnoc(zone: string, from: nat, to: nat)
    requires from <= to + 1
    ensures PageCalls(zone, from, to) + [ListRecords(zone, to + 1)] == PageCalls(zone, from, to + 1)
  {
    var cs := PageCalls(zone, from, to) + [ListRecords(zone, to + 1)];
    forall k | 0 <= k < |cs| ensures cs[k] == PageCalls(zone, from, to + 1)[k] {
      if k < |PageCalls(zone, from, to)| {
        assert cs[k] == PageCalls(zone, from, to)[k];
      }
    }
  }

  /** A search of page 1 onward that stops at page n has asked for pages 1 to
      n and returns what page n gave. */
  lemma StopsAt(pages: Pages, zone: string, name: string, recordType: string, n: nat)
    requires name != ""
    requires Reaches(pages, n)
    requires |Seen(pages, name, recordType, n - 1)| <= 1
    ensures n <= MaxInt64
    ensures var there := SearchFrom(pages, zone, name, recordType, n);
            there.calls == [ListRecords(zone, n)] ==>
              ScanFrom(pages, zone, name, recordType, 1, ZeroRecord) == Lookup(there.rec, there.err, PageCalls(zone, 1, n))
  {
    if n > 1 {
      assert Continues(pages, n - 1);
    }
    assert Seen(pages, name, recordType, 0) == [];
    ScanAdvances(pages, zone, name, recordType, 1, n);
    assert SearchFrom(pages, zone, name, recordType, 1) == ScanFrom(pages, zone, name, recordType, 1, ZeroRecord);
    if SearchFrom(pages, zone, name, recordType, n).calls == [ListRecords(zone, n)] {
      PageCallsSnoc(zone, 1, n - 1);
    }
  }

  /** The last page, reached with at most one match so far: the single match,
      or the zero record and a "no record" error. */
  lemma SearchEndsAt(pages: Pages, zone: string, name: string, recordType: string, n: nat)
    requires name != ""
    requires 1 <= n <= MaxInt64
    requires pages(n).Ok? && n >= pages(n).value.totalPages
    requires |Seen(pages, name, recordType, n)| <= 1
    ensures var ms := Seen(pages, name, recordType, n);
            SearchFrom(pages, zone, name, recordType, n) ==
              if ms == [] then Lookup(ZeroRecord, Some(NoRecord(name, recordType)), [ListRecords(zone, n)])
              else Lookup(ms[0], None, [ListRecords(zone, n)])
  {
    var prior := Seen(pages, name, recordType, n - 1);
    SeenAllMatch(pages, name, recordType, n - 1);
    SeenAllMatch(pages, name, recordType, n);
    ScanPageMatches(PageRecords(pages, n), name, recordType, prior);
    var ms := Seen(pages, name, recordType, n);
    if ms != [] {
      assert ms[0].name == name;
    }
  }

  /** A second match on page n: the zero record and a "duplicate" error. */
  lemma SearchDuplicateAt(pages: Pages, zone: string, name: string, recordType: string, n: nat)
    requires name != ""
    requires 1 <= n <= MaxInt64
    requires pages(n).Ok?
    requires |Seen(pages, name, recordType, n - 1)| <= 1
    requires |Seen(pages, name, recordType, n)| >= 2
    ensures SearchFrom(pages, zone, name, recordType, n) ==
              Lookup(ZeroRecord, Some(DuplicateEntry(name, recordType)), [ListRecords(zone, n)])
  {
    var prior := Seen(pages, name, recordType, n - 1);
    SeenAllMatch(pages, name, recordType, n - 1);
    SeenAllMatch(pages, name, recordType, n);
    ScanPageMatches(PageRecords(pages, n), name, recordType, prior);
    var ms := Seen(pages, name, recordType, n);
    assert IsMatch(ms[1], name, recordType);
  }

  /** A failing page: its error, with the candidate held so far. */
  lemma SearchFailsAt(pages: Pages, zone: string, name: string, recordType: string, n: nat)
    requires 1 <= n <= MaxInt64
    requires pages(n).Err?
    ensures SearchFrom(pages, zone, name, recordType, n) ==
              Lookup(HeldOf(Seen(pages, name, recordType, n - 1)), Some(pages(n).error), [ListRecords(zone, n)])
  {
  }

  /** A search that stops at page n, once the zone is known, returns what page
      n gave after asking for the zone and then pages 1 to n. */
  lemma GetRecordAt(server: Call -> Reply, name: string, recordType: string, zone: string, n: nat)
    requires '.' in name
    requires GetZone(server, name) == Ok(zone)
    requires Reaches(PagesOf(server, zone), n)
    requires |Seen(PagesOf(server, zone), name, recordType, n - 1)| <= 1
    ensures n <= MaxInt64
    ensures var there := SearchFrom(PagesOf(server, zone), zone, name, recordType, n);
            there.calls == [ListRecords(zone, n)] ==>
              GetRecordSpec(server, name, recordType) == Lookup(there.rec, there.err, [ZonesCall(name)] + PageCalls(zone, 1, n))
  {
    StopsAt(PagesOf(server, zone), zone, name, recordType, n);
  }

  /** If the zone lookup fails, the error is wrapped and no page is asked for. */
  lemma GetRecordZoneFailure(server: Call -> Reply, name: string, recordType: string)
    requires '.' in name
    requires GetZone(server, name).Err?
    ensures GetRecordSpec(server, name, recordType) ==
              Lookup(ZeroRecord, Some(ZoneInformation(GetZone(server, name).error)), [ZonesCall(name)])
  {
  }

  /** Exactly one match up to the last page: that record, whatever its page,
      after asking for pages 1 to n. */
  lemma GetRecordFound(server: Call -> Reply, name: string, recordType: string, zone: string, n: nat)
    requires '.' in name
    requires GetZone(server, name) == Ok(zone)
    requires Reaches(PagesOf(server, zone), n)
    requires PagesOf(server, zone)(n).Ok? && n >= PagesOf(server, zone)(n).value.totalPages
    requires |Seen(PagesOf(server, zone), name, recordType, n)| == 1
    ensures GetRecordSpec(server, name, recordType) ==
              Lookup(Seen(PagesOf(server, zone), name, recordType, n)[0], None, [ZonesCall(name)] + PageCalls(zone, 1, n))
  {
    var pages := PagesOf(server, zone);
    SeenGrows(pages, name, recordType, n - 1, n);
    GetRecordAt(server, name, recordType, zone, n);
    SearchEndsAt(pages, zone, name, recordType, n);
  }

  /** No match up to the last page: the zero record and a "no record" error. */
  lemma GetRecordNotFound(server: Call -> Reply, name: string, recordType: string, zone: string, n: nat)
    requires '.' in name
    requires GetZone(server, name) == Ok(zone)
    requires Reaches(PagesOf(server, zone), n)
    requires PagesOf(server, zone)(n).Ok? && n >= PagesOf(server, zone)(n).value.totalPages
    requires |Seen(PagesOf(server, zone), name, recordType, n)| == 0
    ensures GetRecordSpec(server, name, recordType) ==
              Lookup(ZeroRecord, Some(NoRecord(name, recordType)), [ZonesCall(name)] + PageCalls(zone, 1, n))
  {
    var pages := PagesOf(server, zone);
    SeenGrows(pages, name, recordType, n - 1, n);
    GetRecordAt(server, name, recordType, zone, n);
    SearchEndsAt(pages, zone, name, recordType, n);
  }

  /** A second match on page n, in page-then-listing order: the zero record and
      a "duplicate" error, and no page after n is asked for. */
  lemma GetRecordDuplicate(server: Call -> Reply, name: string, recordType: string, zone: string, n: nat)
    requires '.' in name
    requires GetZone(server, name) == Ok(zone)
    requires Reaches(PagesOf(server, zone), n)
    requires PagesOf(server, zone)(n).Ok?
    requires |Seen(PagesOf(server, zone), name, recordType, n - 1)| <= 1
    requires |Seen(PagesOf(server, zone), name, recordType, n)| >= 2
    ensures GetRecordSpec(server, name, recordType) ==
              Lookup(ZeroRecord, Some(DuplicateEntry(name, recordType)), [ZonesCall(name)] + PageCalls(zone, 1, n))
  {
    GetRecordAt(server, name, recordType, zone, n);
    SearchDuplicateAt(PagesOf(server, zone), zone, name, recordType, n);
  }

  /** A page that fails ends the search with that error and with the candidate
      held so far (the single earlier match, or the zero record). */
  lemma GetRecordPageFailure(server: Call -> Reply, name: string, recordType: string, zone: string, n: nat)
    requires '.' in name
    requires GetZone(server, name) == Ok(zone)
    requires Reaches(PagesOf(server, zone), n)
    requires PagesOf(server, zone)(n).Err?
    requires |Seen(PagesOf(server, zone), name, recordType, n - 1)| <= 1
    ensures GetRecordSpec(server, name, recordType) ==
              Lookup(HeldOf(Seen(PagesOf(server, zone), name, recordType, n - 1)), Some(PagesOf(server, zone)(n).error),
                     [ZonesCall(name)] + PageCalls(zone, 1, n))
  {
    GetRecordAt(server, name, recordType, zone, n);
    SearchFailsAt(PagesOf(server, zone), zone, name, recordType, n);
  }

  lemma {:induction false} ScanFromCalls(pages: Pages, zone: string, name: string, recordType: string, p: int, held: Record)
    requires 1 <= p <= MaxInt64
    ensures var cs := ScanFrom(pages, zone, name, recordType, p, held).calls;
            |cs| >= 1 && cs == PageCalls(zone, p, p + |cs| - 1)
    decreases MaxInt64 - p
  {
    var call := ListRecords(zone, p);
    if pages(p).Ok? {
      var s := ScanPage(pages(p).value.result, name, recordType, held);
      if s.Holding? && p < pages(p).value.totalPages {
        ScanFromCalls(pages, zone, name, recordType, p + 1, s.held);
        var rest := ScanFrom(pages, zone, name, recordType, p + 1, s.held).calls;
        PageCallsCons(zone, p, p + |rest|);
      } else {
        assert PageCalls(zone, p, p) == [call];
      }
    } else {
      assert PageCalls(zone, p, p) == [call];
    }
  }

  /** Every search asks for the zone first and then for record pages 1, 2, 3,
      ... in order, at least one page once the zone is known. */
  lemma GetRecordAsksPagesInOrder(server: Call -> Reply, name: string, recordType: string)
    requires '.' in name
    ensures var calls := GetRecordSpec(server, name, recordType).calls;
            |calls| >= 1 && calls[0] == ZonesCall(name) &&
            (GetZone(server, name).Err? ==> |calls| == 1) &&
            (GetZone(server, name).Ok? ==>
               (|calls| >= 2 && forall k :: 1 <= k < |calls| ==> calls[k] == ListRecords(GetZone(server, name).value, k)))
  {
    if GetZone(server, name).Ok? {
      var zone := GetZone(server, name).value;
      ScanFromCalls(PagesOf(server, zone), zone, name, recordType, 1, ZeroRecord);
      var cs := ScanFrom(PagesOf(server, zone), zone, name, recordType, 1, ZeroRecord).calls;
      var calls := GetRecordSpec(server, name, recordType).calls;
      assert calls == [ZonesCall(name)] + cs;
      forall k | 1 <= k < |calls| ensures calls[k] == ListRecords(zone, k) {
        assert calls[k] == cs[k - 1];
      }
    }
  }

  // ---------------------------------------------------------------------
  // What the error texts say

  /** `%w` keeps the cause's text: wrapping a zone failure loses nothing. */
  lemma WrappingKeepsCause(e: ClientError)
    ensures Contains(Message(ZoneList(e)), Message(e))
    ensures Contains(Message(ZoneInformation(e)), Message(e))
  {
    ContainsSelf(Message(e));
    ContainsRight("could not get zone list: ", Message(e), Message(e));
    ContainsRight("error getting zone information: ", Message(e), Message(e));
  }

  /** The duplicate error says "duplicate" and names the record, quoted. */
  lemma DuplicateEntryMentions(name: string, recordType: string)
    ensures Contains(Message(DuplicateEntry(name, recordType)), "duplicate")
    ensures Contains(Message(DuplicateEntry(name, recordType)), Quote(name))
  {
    var lead, q := "found duplicate entry for ", Quote(name);
    assert Message(DuplicateEntry(name, recordType)) == lead + q + " and type " + Quote(recordType);
    assert Contains(lead, "duplicate") by {
      assert lead[6..15] == "duplicate";
      assert ContainsAt(lead, "duplicate", 6);
    }
    ContainsSelf(q);
    InFourPieces(lead, q, " and type ", Quote(recordType), "duplicate", 0);
    InFourPieces(lead, q, " and type ", Quote(recordType), q, 1);
  }

  /** The not-found error says "no record" and names the record and its type. */
  lemma NoRecordMentions(name: string, recordType: string)
    ensures Contains(Message(NoRecord(name, recordType)), "no record")
    ensures Contains(Message(NoRecord(name, recordType)), Quote(name))
    ensures Contains(Message(NoRecord(name, recordType)), recordType)
  {
    var lead, q := "no record for ", Quote(name);
    assert Message(NoRecord(name, recordType)) == lead + q + " of type " + recordType + " found";
    assert Contains(lead, "no record") by {
      assert lead[0..9] == "no record";
      assert ContainsAt(lead, "no record", 0);
    }
    ContainsSelf(q);
    ContainsSelf(recordType);
    InFivePieces(lead, q, " of type ", recordType, " found", "no record", 0);
    InFivePieces(lead, q, " of type ", recordType, " found", q, 1);
    InFivePieces(lead, q, " of type ", recordType, " found", recordType, 3);
  }

  /** The first page URL of the zone the client tests use. */
  lemma FirstPageUrl()
    ensures Url(ListRecords("zone12345", 1)) ==
              "https://api.cloudflare.com/client/v4" + "/zones/" + "zone12345" + "/dns_records?page=" + "1" + "&per_page=" + "50"
  {
    assert NatToString(1) == "1";
    assert NatToString(5) == "5";
    assert NatToString(0) == "0";
    assert NatToString(50) == NatToString(5) + [Digit(0)];
  }

  // ---------------------------------------------------------------------
  // UpdateRecord

  /** The request UpdateRecord puts: TTL 0 becomes 1. */
  function Sent(request: UpdateRequest): (r: UpdateRequest)
    ensures r.ttl != 0 && r.(ttl := request.ttl) == request
    ensures request.ttl != 0 ==> r == request
    ensures request.ttl == 0 ==> r == request.(ttl := 1)
  {
    if request.ttl == 0 then request.(ttl := 1) else request
  }

  /** UpdateRecord (client.go): TTL 0 is sent as 1, the zone is resolved again
      from the request's name, then the PUT is issued. The body is decoded
      into a nil interface, so checkError sees a map and every JSON object
      reply, success included, comes back as an error. */
  method UpdateRecord(server: Call -> Reply, id: string, request: UpdateRequest)
    returns (err: Option<ClientError>, ghost calls: seq<Call>)
    requires '.' in request.name
    ensures 1 <= |calls| <= 2 && calls[0] == ZonesCall(request.name)
    ensures |calls| == 1 <==> GetZone(server, request.name).Err?
    ensures |calls| == 2 ==> calls[1] == PutRecord(GetZone(server, request.name).value, id, Sent(request))
    ensures GetZone(server, request.name).Err? ==> err == Some(ZoneInformation(GetZone(server, request.name).error))
    ensures GetZone(server, request.name).Ok? ==>
              err == ErrorOf(Send(server(PutRecord(GetZone(server, request.name).value, id, Sent(request))), IntoNil))
    ensures err.Some?
    ensures GetZone(server, request.name).Ok? ==>
              var reply := server(PutRecord(GetZone(server, request.name).value, id, Sent(request)));
              reply.Received? && (reply.body.Json? || reply.body.OtherObject?) ==>
                err == Some(FromCloudflare(NonStructItem("map")))
  {
    var req := request;
    if req.ttl == 0 {
      req := req.(ttl := 1);
    }
    calls := [ZonesCall(req.name)];
    var zone := GetZone(server, req.name);
    if zone.Err? {
      return Some(ZoneInformation(zone.error)), calls;
    }
    var put := PutRecord(zone.value, id, req);
    calls := calls + [put];
    err := ErrorOf(Send(server(put), IntoNil));
  }

  /** UpdateRecord with the reply decoded into an envelope, so that checkError
      reports what the provider said. */
  method UpdateRecordChecked(server: Call -> Reply, id: string, request: UpdateRequest)
    returns (err: Option<ClientError>, ghost calls: seq<Call>)
    requires '.' in request.name
    ensures 1 <= |calls| <= 2 && calls[0] == ZonesCall(request.name)
    ensures |calls| == 1 <==> GetZone(server, request.name).Err?
    ensures |calls| == 2 ==> calls[1] == PutRecord(GetZone(server, request.name).value, id, Sent(request))
    ensures GetZone(server, request.name).Err? ==> err == Some(ZoneInformation(GetZone(server, request.name).error))
    ensures GetZone(server, request.name).Ok? ==>
              err == ErrorOf(Send(server(PutRecord(GetZone(server, request.name).value, id, Sent(request))), IntoEnvelope))
    ensures GetZone(server, request.name).Ok? ==>
              var reply := server(PutRecord(GetZone(server, request.name).value, id, Sent(request)));
              reply.Received? && reply.body.Json? ==>
                (err == None <==> reply.body.envelope.success || reply.body.envelope.errors == [])
    ensures GetZone(server, request.name).Ok? ==>
              var reply := server(PutRecord(GetZone(server, request.name).value, id, Sent(request)));
              reply.Received? && reply.body.OtherObject? ==> err == Some(DecodeResponse(reply.body.reason))
  {
    var req := request;
    if req.ttl == 0 {
      req := req.(ttl := 1);
    }
    calls := [ZonesCall(req.name)];
    var zone := GetZone(server, req.name);
    if zone.Err? {
      return Some(ZoneInformation(zone.error)), calls;
    }
    var put := PutRecord(zone.value, id, req);
    calls := calls + [put];
    err := ErrorOf(Send(server(put), IntoEnvelope));
  }

  /** The PUT never carries TTL 0 and otherwise carries the request as given. */
  lemma UpdateSendsNonZeroTtl(request: UpdateRequest, zone: string, id: string)
    ensures var sent := Payload(PutRecord(zone, id, Sent(request)));
            sent.Some? && sent.value.ttl != 0 && sent.value.(ttl := request.ttl) == request &&
            (request.ttl != 0 ==> sent.value == request) &&
            (request.ttl == 0 ==> sent.value == request.(ttl := 1))
  {
  }
}

=== FILE: command_params.dfy ===
/** Validation and defaulting of the command-line parameters
    (pkg/config/command_params.go), from the values the flag set has parsed
    into Parse's locals. */
module CommandParams {
  import opened Text

  /** ip.Version: the zero value (the empty string) and the two versions. */
  datatype IpVersion = NoVersion | V4 | V6

  /** Settings for the provider. */
  datatype CloudFlare = CloudFlare(
    domain: string,
    token: string,
    recordType: string,
    timeout: Int64,
    proxied: bool,
    ttl: Int64,
    ipVersion: IpVersion)

  /** Settings for the updater itself. */
  datatype App = App(iface: string, cacheEnabled: bool)

  datatype Configuration = Configuration(cloudFlare: CloudFlare, app: App)

  /** Go's `Configuration{}`. */
  const ZeroConfiguration: Configuration := Configuration(CloudFlare("", "", "", 0, false, 0, NoVersion), App("", false))

  /** The locals after flag parsing: -token, -domain, -type, -interface,
      -timeout, -ttl, -proxied and -cache. */
  datatype Flags = Flags(
    token: string,
    domain: string,
    recordType: string,
    iface: string,
    timeout: Int64,
    ttl: Int64,
    proxied: bool,
    cache: bool)

  /** What the locals hold when no flag is given: the flags' defaults. */
  const Defaults: Flags := Flags("", "", "A", "", 10, 1, true, false)

  const TokenMissing: string := "-token" + Required
  const DomainMissing: string := "-domain" + Required
  const BadType: string := "-type" + " must be 'A' for IPv4 or '" + "AAAA" + "' for IPv6"
  const Required: string := " is required and must not be empty"

  predicate KnownType(recordType: string)
  {
    recordType == "A" || recordType == "AAAA"
  }

  /** The failed checks, in the order Parse makes them. */
  function Problems(f: Flags): seq<string>
  {
    (if f.token == "" then [TokenMissing] else []) +
    (if f.domain == "" then [DomainMissing] else []) +
    (if !KnownType(f.recordType) then [BadType] else [])
  }

  /** The configuration built when every check passes. */
  function Built(f: Flags): Configuration
  {
    Configuration(
      CloudFlare(f.domain, f.token, f.recordType, Seconds(PositiveOr(f.timeout, 10)), f.proxied,
                 PositiveOr(f.ttl, 1), if f.recordType == "AAAA" then V6 else V4),
      App(f.iface, f.cache))
  }

  /** Parse as a function: the configuration, or the joined error text. */
  function Validated(f: Flags): Result<Configuration, string>
  {
    if Problems(f) != [] then Err(Join(Problems(f), "; ")) else Ok(Built(f))
  }

  /** Parse (command_params.go) after the flag set: collect the failed checks,
      default the timeout and the ttl, and return the configuration or the
      zero configuration with every error joined by "; ". */
  method Parse(f: Flags) returns (c: Configuration, err: Option<string>)
    ensures err.None? <==> f.token != "" && f.domain != "" && KnownType(f.recordType)
    ensures err.Some? ==> c == ZeroConfiguration && Validated(f) == Err(err.value)
    ensures err.None? ==> Validated(f) == Ok(c)
  {
    var errs: seq<string> := [];
    if f.token == "" {
      errs := errs + [TokenMissing];
    }
    if f.domain == "" {
      errs := errs + [DomainMissing];
    }
    if f.recordType != "A" && f.recordType != "AAAA" {
      errs := errs + [BadType];
    }
    var ipVer := V4;
    if f.recordType == "AAAA" {
      ipVer := V6;
    }
    var timeout := f.timeout;
    if timeout <= 0 {
      timeout := 10;
    }
    var ttl := f.ttl;
    if ttl <= 0 {
      ttl := 1;
    }
    assert errs == Problems(f);
    if |errs| > 0 {
      return ZeroConfiguration, Some(Join(errs, "; "));
    }
    c := Configuration(CloudFlare(f.domain, f.token, f.recordType, Seconds(timeout), f.proxied, ttl, ipVer),
                       App(f.iface, f.cache));
    err := None;
  }

  // ---------------------------------------------------------------------
  // Properties of the validation

  /** Each check adds its own message exactly when it fails. */
  lemma ProblemsAreTheFailedChecks(f: Flags)
    ensures TokenMissing in Problems(f) <==> f.token == ""
    ensures DomainMissing in Problems(f) <==> f.domain == ""
    ensures BadType in Problems(f) <==> !KnownType(f.recordType)
    ensures |Problems(f)| == (if f.token == "" then 1 else 0) + (if f.domain == "" then 1 else 0) +
                             (if KnownType(f.recordType) then 0 else 1)
  {
    var a := if f.token == "" then [TokenMissing] else [];
    var b := if f.domain == "" then [DomainMissing] else [];
    var t := if !KnownType(f.recordType) then [BadType] else [];
    assert Problems(f) == a + b + t;
    assert TokenMissing != DomainMissing && TokenMissing != BadType && DomainMissing != BadType by {
      assert TokenMissing[1] == 't' && DomainMissing[1] == 'd' && BadType[1] == 't';
      assert TokenMissing[2] == 'o' && BadType[2] == 'y';
    }
  }

  /** The joined error names what is wrong: "-token" for an empty token,
      "-domain" for an empty domain, and "-type" and "AAAA" for an unknown
      type. */
  lemma ErrorNamesTheProblems(f: Flags)
    requires Validated(f).Err?
    ensures f.token == "" ==> Contains(Validated(f).error, "-token")
    ensures f.domain == "" ==> Contains(Validated(f).error, "-domain")
    ensures !KnownType(f.recordType) ==> Contains(Validated(f).error, "-type") && Contains(Validated(f).error, "AAAA")
  {
    var ps := Problems(f);
    var text := Join(ps, "; ");
    ProblemsAreTheFailedChecks(f);
    if f.token == "" {
      var k :| 0 <= k < |ps| && ps[k] == TokenMissing;
      JoinContains(ps, "; ", k);
      ContainsSelf("-token");
      ContainsLeft("-token", Required, "-token");
      ContainsTrans(text, TokenMissing, "-token");
    }
    if f.domain == "" {
      var k :| 0 <= k < |ps| && ps[k] == DomainMissing;
      JoinContains(ps, "; ", k);
      ContainsSelf("-domain");
      ContainsLeft("-domain", Required, "-domain");
      ContainsTrans(text, DomainMissing, "-domain");
    }
    if !KnownType(f.recordType) {
      var k :| 0 <= k < |ps| && ps[k] == BadType;
      JoinContains(ps, "; ", k);
      var a, b, c, d := "-type", " must be 'A' for IPv4 or '", "AAAA", "' for IPv6";
      ContainsSelf(a);
      ContainsSelf(c);
      InFourPieces(a, b, c, d, a, 0);
      InFourPieces(a, b, c, d, c, 2);
      ContainsTrans(text, BadType, "-type");
      ContainsTrans(text, BadType, "AAAA");
    }
  }

  /** A successful parse copies the given values, takes the IP version from
      the type, and defaults a timeout or ttl that is zero or negative. */
  lemma ValidatedKeepsAndDefaults(f: Flags)
    requires Validated(f).Ok?
    ensures var cf := Validated(f).value.cloudFlare;
            cf.domain == f.domain && cf.token == f.token && cf.recordType == f.recordType && cf.proxied == f.proxied &&
            Validated(f).value.app == App(f.iface, f.cache)
    ensures Validated(f).value.cloudFlare.ipVersion == V6 <==> f.recordType == "AAAA"
    ensures Validated(f).value.cloudFlare.ipVersion == V4 <==> f.recordType == "A"
    ensures f.ttl > 0 ==> Validated(f).value.cloudFlare.ttl == f.ttl
    ensures f.ttl <= 0 ==> Validated(f).value.cloudFlare.ttl == 1
    ensures f.timeout <= 0 ==> Validated(f).value.cloudFlare.timeout == 10 * Second
    ensures 0 < f.timeout <= MaxInt64 / Second ==> Validated(f).value.cloudFlare.timeout == f.timeout * Second
    ensures 0 < f.timeout ==> Validated(f).value.cloudFlare.timeout == Seconds(f.timeout)
  {
  }

  /** An empty command line reports both the token and the domain. */
  lemma EmptyCommandLine()
    ensures Validated(Defaults) == Err(TokenMissing + "; " + DomainMissing)
    ensures Contains(Validated(Defaults).error, "-token") && Contains(Validated(Defaults).error, "-domain")
  {
    assert Problems(Defaults) == [TokenMissing, DomainMissing];
    assert Join([TokenMissing, DomainMissing], "; ") == TokenMissing + "; " + Join([DomainMissing], "; ");
    ErrorNamesTheProblems(Defaults);
  }

  /** The minimal and the full command lines of the package's tests. */
  lemma TestCommandLines()
    ensures Validated(Defaults.(domain := "nenad.dev", token := "token")) ==
              Ok(Configuration(CloudFlare("nenad.dev", "token", "A", 10 * Second, true, 1, V4), App("", false)))
    ensures Validated(Defaults.(domain := "nenad.dev", token := "token", recordType := "AAAA", timeout := 200,
                                ttl := 300, iface := "wlp3s0")) ==
              Ok(Configuration(CloudFlare("nenad.dev", "token", "AAAA", 200 * Second, true, 300, V6), App("wlp3s0", false)))
  {
  }
}

=== FILE: environment.dfy ===
/** Validation and defaulting of the settings read from the process
    environment (pkg/config/environment.go). The environment is a map from
    variable names to values; an unset variable reads as the empty string,
    as os.Getenv returns it. */
module Environment {
  import opened Text

  /** Settings for the provider, as this version of the package declares
      them. */
  datatype CloudFlare = CloudFlare(
    domain: string,
    token: string,
    recordType: string,
    timeout: Int64,
    proxied: bool,
    ttl: Int64)

  /** Go's `CloudFlare{}`. */
  const ZeroCloudFlare: CloudFlare := CloudFlare("", "", "", 0, false, 0)

  /** Go's `os.Getenv`. */
  function Getenv(env: map<string, string>, key: string): string
  {
    if key in env then env[key] else ""
  }

  const Lead: string := "environment variable "
  const NotSet: string := " is not set"
  const TypeRule: string := " must be 'A' for IPv4 or '"
  const TokenUnset: string := Lead + "TOKEN" + NotSet
  const DomainUnset: string := Lead + "DOMAIN" + NotSet
  const BadType: string := Lead + "TYPE" + TypeRule + "AAAA" + "' for IPv6"

  predicate KnownType(recordType: string)
  {
    recordType == "A" || recordType == "AAAA"
  }

  /** The failed checks, in the order FromEnvironment makes them. */
  function Problems(env: map<string, string>): seq<string>
  {
    (if Getenv(env, "TOKEN") == "" then [TokenUnset] else []) +
    (if Getenv(env, "DOMAIN") == "" then [DomainUnset] else []) +
    (if !KnownType(Getenv(env, "TYPE")) then [BadType] else [])
  }

  /** The timeout in seconds: TIMEOUT read by Atoi, 10 when that is not
      positive. */
  function TimeoutSeconds(env: map<string, string>): Int64
  {
    PositiveOr(AtoiValue(Atoi(Getenv(env, "TIMEOUT"))), 10)
  }

  /** The settings built when every check passes. */
  function Built(env: map<string, string>): CloudFlare
  {
    var proxied := ParseBool(Getenv(env, "PROXIED"));
    CloudFlare(Getenv(env, "DOMAIN"), Getenv(env, "TOKEN"), Getenv(env, "TYPE"),
               Seconds(TimeoutSeconds(env)),
               if proxied.Some? then proxied.value else true,
               PositiveOr(AtoiValue(Atoi(Getenv(env, "TTL"))), 1))
  }

  /** FromEnvironment as a function: the settings, or the joined error text. */
  function Loaded(env: map<string, string>): Result<CloudFlare, string>
  {
    if Problems(env) != [] then Err(Join(Problems(env), ";")) else Ok(Built(env))
  }

  /** FromEnvironment (environment.go): read and check TOKEN, DOMAIN and TYPE,
      default TIMEOUT, TTL and PROXIED, and return the settings or the zero
      settings with every error joined by ";". */
  method FromEnvironment(env: map<string, string>) returns (c: CloudFlare, err: Option<string>)
    ensures err.None? <==> Getenv(env, "TOKEN") != "" && Getenv(env, "DOMAIN") != "" && KnownType(Getenv(env, "TYPE"))
    ensures err.Some? ==> c == ZeroCloudFlare && Loaded(env) == Err(err.value)
    ensures err.None? ==> Loaded(env) == Ok(c)
  {
    var errs: seq<string> := [];
    var token := Getenv(env, "TOKEN");
    if token == "" {
      errs := errs + [TokenUnset];
    }
    var domain := Getenv(env, "DOMAIN");
    if domain == "" {
      errs := errs + [DomainUnset];
    }
    var domainType := Getenv(env, "TYPE");
    if domainType != "A" && domainType != "AAAA" {
      errs := errs + [BadType];
    }
    var secTimeout := AtoiValue(Atoi(Getenv(env, "TIMEOUT")));
    if secTimeout <= 0 {
      secTimeout := 10;
    }
    var ttl := AtoiValue(Atoi(Getenv(env, "TTL")));
    if ttl <= 0 {
      ttl := 1;
    }
    var parsed := ParseBool(Getenv(env, "PROXIED"));
    var proxied := parsed.Some? && parsed.value;
    if parsed.None? {
      proxied := true;
    }
    assert errs == Problems(env);
    if |errs| > 0 {
      return ZeroCloudFlare, Some(Join(errs, ";"));
    }
    c := CloudFlare(domain, token, domainType, Seconds(secTimeout), proxied, ttl);
    assert c == Built(env);
    err := None;
  }

  // ---------------------------------------------------------------------
  // Properties of the validation

  /** Each check adds its own message exactly when it fails. */
  lemma ProblemsAreTheFailedChecks(env: map<string, string>)
    ensures TokenUnset in Problems(env) <==> Getenv(env, "TOKEN") == ""
    ensures DomainUnset in Problems(env) <==> Getenv(env, "DOMAIN") == ""
    ensures BadType in Problems(env) <==> !KnownType(Getenv(env, "TYPE"))
    ensures |Problems(env)| == (if Getenv(env, "TOKEN") == "" then 1 else 0) +
                               (if Getenv(env, "DOMAIN") == "" then 1 else 0) +
                               (if KnownType(Getenv(env, "TYPE")) then 0 else 1)
  {
    assert TokenUnset != DomainUnset && TokenUnset != BadType && DomainUnset != BadType by {
      assert |TokenUnset| == 37 && |DomainUnset| == 38;
      assert BadType[21] == 'T' && BadType[22] == 'Y';
      assert TokenUnset[22] == 'O';
    }
  }

  /** The joined error names every variable at fault: TOKEN, DOMAIN, and TYPE
      together with "AAAA". */
  lemma ErrorNamesTheVariables(env: map<string, string>)
    requires Loaded(env).Err?
    ensures Getenv(env, "TOKEN") == "" ==> Contains(Loaded(env).error, "TOKEN")
    ensures Getenv(env, "DOMAIN") == "" ==> Contains(Loaded(env).error, "DOMAIN")
    ensures !KnownType(Getenv(env, "TYPE")) ==> Contains(Loaded(env).error, "TYPE") && Contains(Loaded(env).error, "AAAA")
  {
    var ps := Problems(env);
    var text := Join(ps, ";");
    ProblemsAreTheFailedChecks(env);
    if Getenv(env, "TOKEN") == "" {
      var k :| 0 <= k < |ps| && ps[k] == TokenUnset;
      JoinContains(ps, ";", k);
      ContainsSelf("TOKEN");
      ContainsRight(Lead, "TOKEN", "TOKEN");
      ContainsLeft(Lead + "TOKEN", NotSet, "TOKEN");
      ContainsTrans(text, TokenUnset, "TOKEN");
    }
    if Getenv(env, "DOMAIN") == "" {
      var k :| 0 <= k < |ps| && ps[k] == DomainUnset;
      JoinContains(ps, ";", k);
      ContainsSelf("DOMAIN");
      ContainsRight(Lead, "DOMAIN", "DOMAIN");
      ContainsLeft(Lead + "DOMAIN", NotSet, "DOMAIN");
      ContainsTrans(text, DomainUnset, "DOMAIN");
    }
    if !KnownType(Getenv(env, "TYPE")) {
      var k :| 0 <= k < |ps| && ps[k] == BadType;
      JoinContains(ps, ";", k);
      ContainsSelf("TYPE");
      ContainsSelf("AAAA");
      InFivePieces(Lead, "TYPE", TypeRule, "AAAA", "' for IPv6", "TYPE", 1);
      InFivePieces(Lead, "TYPE", TypeRule, "AAAA", "' for IPv6", "AAAA", 3);
      ContainsTrans(text, BadType, "TYPE");
      ContainsTrans(text, BadType, "AAAA");
    }
  }

  /** Successful loading copies DOMAIN, TOKEN and TYPE, and defaults a
      TIMEOUT or TTL that does not parse or is not positive, and a PROXIED
      that does not parse. */
  lemma LoadedKeepsAndDefaults(env: map<string, string>)
    requires Loaded(env).Ok?
    ensures var cf := Loaded(env).value;
            cf.domain == Getenv(env, "DOMAIN") && cf.token == Getenv(env, "TOKEN") && cf.recordType == Getenv(env, "TYPE")
    ensures AtoiValue(Atoi(Getenv(env, "TIMEOUT"))) <= 0 ==> Loaded(env).value.timeout == 10 * Second
    ensures Atoi(Getenv(env, "TIMEOUT")) == None ==> Loaded(env).value.timeout == 10 * Second
    ensures var t := AtoiValue(Atoi(Getenv(env, "TIMEOUT")));
            0 < t <= MaxInt64 / Second ==> Loaded(env).value.timeout == t * Second
    ensures var t := AtoiValue(Atoi(Getenv(env, "TIMEOUT")));
            0 < t ==> Loaded(env).value.timeout == Seconds(t)
    ensures Atoi(Getenv(env, "TTL")) == None ==> Loaded(env).value.ttl == 1
    ensures var t := AtoiValue(Atoi(Getenv(env, "TTL")));
            (t <= 0 ==> Loaded(env).value.ttl == 1) && (t > 0 ==> Loaded(env).value.ttl == t)
    ensures ParseBool(Getenv(env, "PROXIED")) == None ==> Loaded(env).value.proxied
    ensures ParseBool(Getenv(env, "PROXIED")) == Some(false) ==> !Loaded(env).value.proxied
    ensures ParseBool(Getenv(env, "PROXIED")) == Some(true) ==> Loaded(env).value.proxied
  {
  }

  /** An empty environment reports TOKEN, DOMAIN and TYPE, in that order. */
  lemma EmptyEnvironment()
    ensures Loaded(map[]) == Err(TokenUnset + ";" + DomainUnset + ";" + BadType)
    ensures Contains(Loaded(map[]).error, "TOKEN") && Contains(Loaded(map[]).error, "DOMAIN") &&
            Contains(Loaded(map[]).error, "TYPE")
  {
    var env: map<string, string> := map[];
    assert Problems(env) == [TokenUnset, DomainUnset, BadType];
    assert Join([TokenUnset, DomainUnset, BadType], ";") == TokenUnset + ";" + Join([DomainUnset, BadType], ";");
    assert Join([DomainUnset, BadType], ";") == DomainUnset + ";" + Join([BadType], ";");
    AppendAssoc(TokenUnset + ";", DomainUnset + ";", BadType);
    AppendAssoc(TokenUnset, ";", DomainUnset + ";");
    AppendAssoc(TokenUnset + ";" + DomainUnset, ";", BadType);
    AppendAssoc(TokenUnset + ";", DomainUnset, ";");
    ErrorNamesTheVariables(env);
  }

  /** The minimal environment of the package's tests loads with the
      defaults. */
  lemma MinimalEnvironment()
    ensures Loaded(map["DOMAIN" := "nenad.dev", "TOKEN" := "token", "TYPE" := "A"]) ==
              Ok(CloudFlare("nenad.dev", "token", "A", 10 * Second, true, 1))
  {
    var env := map["DOMAIN" := "nenad.dev", "TOKEN" := "token", "TYPE" := "A"];
    assert Getenv(env, "TIMEOUT") == "" && Getenv(env, "TTL") == "" && Getenv(env, "PROXIED") == "";
    AtoiEmpty();
    ParseBoolFormatBool(true);
  }

  /** The numbers of the full test environment read as given. */
  lemma TestNumbers()
    ensures Atoi("200") == Some(200) && Atoi("300") == Some(300)
  {
    ThreeDigits('2');
    ThreeDigits('3');
    assert ['2', '0', '0'] == "200" && ['3', '0', '0'] == "300";
  }

  /** A digit followed by two zeros reads as that digit's hundreds. */
  lemma ThreeDigits(d: char)
    requires '1' <= d <= '9'
    ensures Atoi([d, '0', '0']) == Some((d as int - '0' as int) * 100)
  {
    var s := [d, '0', '0'];
    assert s[1..] == ['0', '0'] && ['0', '0'][1..] == ['0'] && ['0'][1..] == [];
    assert DigitsValue(s) == Accumulated(DigitValue(d), ['0', '0']);
    AtoiDigits(s);
  }

  /** A TIMEOUT whose digits overflow before a stray byte is read at strconv's
      clamp, MaxInt64 seconds, and not replaced by the default. */
  lemma OverflowingTimeout(env: map<string, string>)
    requires Getenv(env, "TIMEOUT") == "99999999999999999999x"
    ensures TimeoutSeconds(env) == MaxInt64
  {
    AtoiOverflowExample(Getenv(env, "TIMEOUT"));
  }

  /** The full environment of the package's tests: TIMEOUT 200, TTL 300 and
      PROXIED "false" are taken as given. */
  lemma FullEnvironment()
    ensures Loaded(map["DOMAIN" := "nenad.dev", "TOKEN" := "token", "TYPE" := "AAAA", "TIMEOUT" := "200",
                       "PROXIED" := "false", "TTL" := "300"]) ==
              Ok(CloudFlare("nenad.dev", "token", "AAAA", 200 * Second, false, 300))
  {
    var env := map["DOMAIN" := "nenad.dev", "TOKEN" := "token", "TYPE" := "AAAA", "TIMEOUT" := "200",
                   "PROXIED" := "false", "TTL" := "300"];
    assert Getenv(env, "DOMAIN") == "nenad.dev" && Getenv(env, "TOKEN") == "token" && Getenv(env, "TYPE") == "AAAA";
    assert Getenv(env, "TIMEOUT") == "200" && Getenv(env, "TTL") == "300" && Getenv(env, "PROXIED") == "false";
    FullSettings(env);
  }

  /** The settings of the full test environment, from its six values. */
  lemma FullSettings(env: map<string, string>)
    requires Getenv(env, "DOMAIN") == "nenad.dev" && Getenv(env, "TOKEN") == "token" && Getenv(env, "TYPE") == "AAAA"
    requires Getenv(env, "TIMEOUT") == "200" && Getenv(env, "TTL") == "300" && Getenv(env, "PROXIED") == "false"
    ensures Loaded(env) == Ok(CloudFlare("nenad.dev", "token", "AAAA", 200 * Second, false, 300))
  {
    TestNumbers();
    ParseBoolFormatBool(false);
    assert TimeoutSeconds(env) == 200;
    assert Problems(env) == [];
  }

  /** A TYPE other than A or AAAA fails, and the error names TYPE and AAAA. */
  lemma UnknownTypeEnvironment()
    ensures Loaded(map["DOMAIN" := "nenad.dev", "TOKEN" := "token", "TYPE" := "B"]) == Err(BadType)
    ensures Contains(BadType, "TYPE") && Contains(BadType, "AAAA")
  {
    var env := map["DOMAIN" := "nenad.dev", "TOKEN" := "token", "TYPE" := "B"];
    assert Problems(env) == [BadType];
    ErrorNamesTheVariables(env);
  }
}

=== FILE: retry.dfy ===
/** The bounded-retry round-tripper of pkg/resilience/retry.go. The inner
    round-tripper and the wait are oracles: `next(i)` is what the inner call
    of attempt i (counting from 0) gives back, and `waits(i)` says how the
    wait after that attempt ends. */
module Resilience {
  import opened Text

  /** The number of attempts used when none (or a negative number) is set. */
  const DefaultAttempts: int := 3

  /** The status code is the only part of a response the decorator reads. */
  datatype Response = Response(statusCode: int)

  /** What one inner round trip gives back: a response, or a transport error
      (with no response). */
  datatype Exchange = Responded(resp: Response) | TransportError(message: string)

  /** How a wait between attempts ends: the wait elapses, or the request's
      context is done first, with that context's error. */
  datatype WaitOutcome = Elapsed | ContextDone(ctxErr: string)

  /** The two errors RoundTrip makes itself. */
  datatype RetryError =
    | ContextError(ctxErr: string)
    | Exhausted(attempts: int, last: Option<string>)

  /** The text of the error: the context's own error, or the attempt count
      followed by the last inner error. `%w` of a nil error prints
      "%!w(<nil>)", which is what the last attempt leaves when it got a
      server error rather than a transport error. */
  function ErrorMessage(e: RetryError): string
  {
    match e
    case ContextError(c) => c
    case Exhausted(n, last) =>
      "could not get a response after " + IntToString(n) + " attempts: " +
      (if last.Some? then last.value else "%!w(<nil>)")
  }

  /** What the decorator does, in order: inner calls, and waits of a given
      duration. */
  datatype Step = Attempt(index: nat) | Pause(duration: int)

  /** The response and error RoundTrip returns, and the steps it took. */
  datatype Outcome = Outcome(resp: Option<Response>, err: Option<RetryError>, steps: seq<Step>)

  /** An inner result that ends the retries: no transport error and a status
      below 500, that is not a server error (section 15.6 of RFC 9110). */
  predicate Succeeds(x: Exchange)
  {
    x.Responded? && x.resp.statusCode < 500
  }

  function ResponseOf(x: Exchange): Option<Response>
  {
    if x.Responded? then Some(x.resp) else None
  }

  function InnerError(x: Exchange): Option<string>
  {
    if x.TransportError? then Some(x.message) else None
  }

  /** Steps taken earlier, in front of an outcome. */
  function Then(steps: seq<Step>, o: Outcome): Outcome
  {
    Outcome(o.resp, o.err, steps + o.steps)
  }

  /** The loop of RoundTrip from attempt i on, with the normalised settings. */
  function RunFrom(next: nat -> Exchange, waits: nat -> WaitOutcome, attempts: int, wait: int, i: nat): Outcome
    requires i < attempts
    decreases attempts - i
  {
    var x := next(i);
    if Succeeds(x) then Outcome(Some(x.resp), None, [Attempt(i)])
    else
      match waits(i)
      case ContextDone(c) => Outcome(ResponseOf(x), Some(ContextError(c)), [Attempt(i), Pause(wait)])
      case Elapsed =>
        if i + 1 < attempts then Then([Attempt(i), Pause(wait)], RunFrom(next, waits, attempts, wait, i + 1))
        else Outcome(ResponseOf(x), Some(Exhausted(attempts, InnerError(x))), [Attempt(i), Pause(wait)])
  }

  /** RoundTrip as a function of the normalised settings. */
  function Run(next: nat -> Exchange, waits: nat -> WaitOutcome, attempts: int, wait: int): Outcome
    requires attempts >= 1
  {
    RunFrom(next, waits, attempts, wait, 0)
  }

  /** The settings RoundTrip normalises on its receiver. */
  function NormalAttempts(attempts: int): int
  {
    if attempts <= 0 then DefaultAttempts else attempts
  }

  function NormalWait(wait: int): int
  {
    if wait == 0 then Second else wait
  }

  /** The Retry decorator with its two settings; the inner round-tripper is
      the `next` oracle passed to RoundTrip. */
  class Retry {
    /** Wait, a time.Duration in nanoseconds. */
    var wait: Int64
    /** Attempts, a Go int. */
    var attempts: Int64

    constructor(wait: Int64, attempts: Int64)
      ensures this.wait == wait && this.attempts == attempts
    {
      this.wait := wait;
      this.attempts := attempts;
    }

    /** RoundTrip (retry.go): normalise the settings in place, then call the
        inner round-tripper until it succeeds, the context is done during a
        wait, or the attempts run out. */
    method RoundTrip(next: nat -> Exchange, waits: nat -> WaitOutcome)
      returns (resp: Option<Response>, err: Option<RetryError>, ghost steps: seq<Step>)
      modifies this
      ensures attempts == NormalAttempts(old(attempts)) && wait == NormalWait(old(wait))
      ensures attempts >= 1
      ensures Outcome(resp, err, steps) == Run(next, waits, attempts, wait)
    {
      if attempts <= 0 {
        attempts := DefaultAttempts;
      }
      if wait == 0 {
        wait := Second;
      }
      var i := 0;
      var last: Option<string> := None;
      resp := None;
      steps := [];
      while i < attempts
        invariant attempts == NormalAttempts(old(attempts)) && wait == NormalWait(old(wait))
        invariant 0 <= i <= attempts
        invariant i < attempts ==> Run(next, waits, attempts, wait) == Then(steps, RunFrom(next, waits, attempts, wait, i))
        invariant i == attempts ==> Run(next, waits, attempts, wait) == Outcome(resp, Some(Exhausted(attempts, last)), steps)
        decreases attempts - i
      {
        var x := next(i);
        resp, last := ResponseOf(x), InnerError(x);
        if Succeeds(x) {
          steps := steps + [Attempt(i)];
          err := None;
          return;
        }
        ghost var before := steps;
        steps := steps + [Attempt(i), Pause(wait)];
        var w := waits(i);
        if w.ContextDone? {
          err := Some(ContextError(w.ctxErr));
          return;
        }
        if i + 1 < attempts {
          AppendAssoc(before, [Attempt(i), Pause(wait)], RunFrom(next, waits, attempts, wait, i + 1).steps);
        }
        i := i + 1;
      }
      err := Some(Exhausted(attempts, last));
    }
  }

  // ---------------------------------------------------------------------
  // Properties of the retry loop

  /** The steps of k attempts that each failed and were followed by a full
      wait: attempt 0, wait, attempt 1, wait, ..., attempt k - 1, wait. */
  function Tried(k: nat, wait: int): (steps: seq<Step>)
    ensures |steps| == 2 * k
  {
    if k == 0 then [] else Tried(k - 1, wait) + [Attempt(k - 1), Pause(wait)]
  }

  /** The number of inner calls among the steps. */
  function Calls(steps: seq<Step>): nat
  {
    if steps == [] then 0 else (if steps[0].Attempt? then 1 else 0) + Calls(steps[1..])
  }

  /** Attempts 0 to k - 1 all failed and each wait elapsed. */
  predicate FailedUntil(next: nat -> Exchange, waits: nat -> WaitOutcome, k: nat)
  {
    forall j :: 0 <= j < k ==> !Succeeds(next(j)) && waits(j) == Elapsed
  }

  lemma {:induction false} CallsAppend(a: seq<Step>, b: seq<Step>)
    ensures Calls(a + b) == Calls(a) + Calls(b)
    decreases |a|
  {
    if a != [] {
      assert (a + b)[1..] == a[1..] + b;
      CallsAppend(a[1..], b);
    } else {
      assert a + b == b;
    }
  }

  /** A failed pass of the loop: one call, then a wait. */
  lemma CallsOfPass(i: nat, wait: int)
    ensures Calls([Attempt(i), Pause(wait)]) == 1
  {
    assert [Attempt(i), Pause(wait)][1..] == [Pause(wait)];
    assert Calls([Pause(wait)]) == 0 by {
      assert [Pause(wait)][1..] == [];
    }
  }

  /** Each pass of the loop makes exactly one inner call, so a run from
      attempt i makes between 1 and attempts - i of them. */
  lemma {:induction false} CallsFrom(next: nat -> Exchange, waits: nat -> WaitOutcome, attempts: int, wait: int, i: nat)
    requires i < attempts
    ensures 1 <= Calls(RunFrom(next, waits, attempts, wait, i).steps) <= attempts - i
    decreases attempts - i
  {
    var x := next(i);
    assert Calls([Attempt(i)]) == 1;
    CallsOfPass(i, wait);
    if !Succeeds(x) && waits(i) == Elapsed && i + 1 < attempts {
      CallsFrom(next, waits, attempts, wait, i + 1);
      CallsAppend([Attempt(i), Pause(wait)], RunFrom(next, waits, attempts, wait, i + 1).steps);
    }
  }

  /** The inner round-tripper is called at least once and at most `attempts`
      times. */
  lemma CallsBounded(next: nat -> Exchange, waits: nat -> WaitOutcome, attempts: int, wait: int)
    requires attempts >= 1
    ensures 1 <= Calls(Run(next, waits, attempts, wait).steps) <= attempts
  {
    CallsFrom(next, waits, attempts, wait, 0);
  }

  /** After k failed attempts, each followed by a full wait, the run goes on
      as the run from attempt k. */
  lemma {:induction false} RunAfter(next: nat -> Exchange, waits: nat -> WaitOutcome, attempts: int, wait: int, k: nat)
    requires k < attempts
    requires FailedUntil(next, waits, k)
    ensures Run(next, waits, attempts, wait) == Then(Tried(k, wait), RunFrom(next, waits, attempts, wait, k))
    decreases k
  {
    var o := RunFrom(next, waits, attempts, wait, k);
    if k == 0 {
      EmptyAppend(o.steps);
    } else {
      RunAfter(next, waits, attempts, wait, k - 1);
      assert !Succeeds(next(k - 1)) && waits(k - 1) == Elapsed;
      assert RunFrom(next, waits, attempts, wait, k - 1) == Then([Attempt(k - 1), Pause(wait)], o);
      AppendAssoc(Tried(k - 1, wait), [Attempt(k - 1), Pause(wait)], o.steps);
    }
  }

  /** The first inner result with no transport error and a status below 500
      is returned at once, with no error and no further call. */
  lemma FirstSuccess(next: nat -> Exchange, waits: nat -> WaitOutcome, attempts: int, wait: int, k: nat)
    requires k < attempts
    requires FailedUntil(next, waits, k)
    requires Succeeds(next(k))
    ensures Run(next, waits, attempts, wait) == Outcome(Some(next(k).resp), None, Tried(k, wait) + [Attempt(k)])
  {
    RunAfter(next, waits, attempts, wait, k);
  }

  /** A context that is done when a wait begins ends the run with the last
      response and the context's error, not the inner one. */
  lemma Cancelled(next: nat -> Exchange, waits: nat -> WaitOutcome, attempts: int, wait: int, k: nat)
    requires k < attempts
    requires FailedUntil(next, waits, k)
    requires !Succeeds(next(k)) && waits(k).ContextDone?
    ensures Run(next, waits, attempts, wait) ==
              Outcome(ResponseOf(next(k)), Some(ContextError(waits(k).ctxErr)), Tried(k + 1, wait))
  {
    RunAfter(next, waits, attempts, wait, k);
    AppendAssoc(Tried(k, wait), [Attempt(k)], [Pause(wait)]);
  }

  /** When every attempt fails, the error states the attempt count and wraps
      the last inner error, and a wait follows the final attempt as well. */
  lemma AllFailed(next: nat -> Exchange, waits: nat -> WaitOutcome, attempts: int, wait: int)
    requires attempts >= 1
    requires FailedUntil(next, waits, attempts)
    ensures Run(next, waits, attempts, wait) ==
              Outcome(ResponseOf(next(attempts - 1)), Some(Exhausted(attempts, InnerError(next(attempts - 1)))),
                      Tried(attempts, wait))
  {
    RunAfter(next, waits, attempts, wait, attempts - 1);
  }

  /** RoundTrip returns no error exactly when it returns a response whose
      status is below 500. */
  lemma {:induction false} NoErrorMeansSuccess(next: nat -> Exchange, waits: nat -> WaitOutcome, attempts: int, wait: int, i: nat)
    requires i < attempts
    ensures var o := RunFrom(next, waits, attempts, wait, i);
            o.err.None? <==> (o.resp.Some? && o.resp.value.statusCode < 500)
    decreases attempts - i
  {
    if !Succeeds(next(i)) && waits(i) == Elapsed && i + 1 < attempts {
      NoErrorMeansSuccess(next, waits, attempts, wait, i + 1);
    }
  }

  /** The inner round-tripper of the package's tests: it fails to connect the
      first `fails` times and answers 200 afterwards. */
  function Flaky(fails: nat): nat -> Exchange
  {
    i => if i < fails then TransportError("failure when connecting") else Responded(Response(200))
  }

  /** With k failures and k + 1 attempts or more, the 200 response comes back
      after exactly k + 1 calls; with as many failures as attempts, or more,
      the run ends with the attempt count and the connection error. */
  lemma FlakyScenarios(fails: nat, attempts: int, wait: int)
    requires attempts >= 1
    ensures fails < attempts ==>
              var o := Run(Flaky(fails), _ => Elapsed, attempts, wait);
              o.resp == Some(Response(200)) && o.err.None? && Calls(o.steps) == fails + 1
    ensures fails >= attempts ==>
              Run(Flaky(fails), _ => Elapsed, attempts, wait).err == Some(Exhausted(attempts, Some("failure when connecting")))
  {
    var waits: nat -> WaitOutcome := _ => Elapsed;
    if fails < attempts {
      FirstSuccess(Flaky(fails), waits, attempts, wait, fails);
      TriedCalls(fails, wait);
      CallsAppend(Tried(fails, wait), [Attempt(fails)]);
      assert Calls([Attempt(fails)]) == 1;
    } else {
      AllFailed(Flaky(fails), waits, attempts, wait);
    }
  }

  lemma {:induction false} TriedCalls(k: nat, wait: int)
    ensures Calls(Tried(k, wait)) == k
  {
    if k > 0 {
      TriedCalls(k - 1, wait);
      CallsAppend(Tried(k - 1, wait), [Attempt(k - 1), Pause(wait)]);
      CallsOfPass(k - 1, wait);
    }
  }

  /** The exhaustion message names the attempt count and the last inner
      error. */
  lemma ExhaustedMessage(n: int, last: string)
    ensures Contains(ErrorMessage(Exhausted(n, Some(last))), IntToString(n))
    ensures Contains(ErrorMessage(Exhausted(n, Some(last))), last)
  {
    var a, b, c := "could not get a response after ", IntToString(n), " attempts: ";
    ContainsSelf(b);
    InFourPieces(a, b, c, last, b, 1);
    ContainsSelf(last);
    InFourPieces(a, b, c, last, last, 3);
  }
}

=== FILE: text.dfy ===
/** Shared vocabulary: optional and fallible values, Go's 64-bit integers, and
    the small string operations of Go's `strings`, `strconv` and `fmt` packages
    that the client and the validators rely on. */
module Text {

  datatype Option<+T> = None | Some(value: T)

  /** A value or an error (Go's `(T, error)` pair). */
  datatype Result<+T, +E> = Ok(value: T) | Err(error: E)

  const MinInt64: int := -0x8000_0000_0000_0000
  const MaxInt64: int := 0x7fff_ffff_ffff_ffff

  /** Go's `int` and `int64` (`time.Duration` included). */
  type Int64 = x: int | MinInt64 <= x <= MaxInt64

  /** Two's-complement wrap-around of an unbounded integer into 64 bits, as Go's
      integer multiplication does on overflow. */
  function Wrap64(x: int): (r: Int64)
    ensures MinInt64 <= x <= MaxInt64 ==> r == x
    ensures (r - x) % 0x1_0000_0000_0000_0000 == 0
  {
    (x - MinInt64) % 0x1_0000_0000_0000_0000 + MinInt64
  }

  /** time.Second, in nanoseconds. */
  const Second: int := 1_000_000_000

  /** `time.Second * time.Duration(n)`: n seconds as a time.Duration, with
      Go's wrap-around when that overflows 64 bits. */
  function Seconds(n: Int64): (d: Int64)
    ensures 0 <= n <= MaxInt64 / Second ==> d == n * Second
    ensures MinInt64 <= n * Second <= MaxInt64 ==> d == n * Second
    ensures (d - n * Second) % 0x1_0000_0000_0000_0000 == 0
  {
    Wrap64(Second * n)
  }

  /** The defaulting both configuration sources apply: a value that is zero
      or negative is replaced by `fallback`. */
  function PositiveOr(x: Int64, fallback: Int64): Int64
  {
    if x <= 0 then fallback else x
  }

  /** Proof steps the solver does not take on its own inside long string
      concatenations: calling one names the regrouped term. */
  lemma EmptyAppend<T>(s: seq<T>)
    ensures [] + s == s
  {
  }

  lemma AppendAssoc<T>(a: seq<T>, b: seq<T>, c: seq<T>)
    ensures (a + b) + c == a + (b + c)
  {
  }

  // ---------------------------------------------------------------------
  // strings.Split(s, ".") and strings.Join

  /** The dot-separated pieces of `s`, in order; like Go's `strings.Split(s, ".")`
      it yields one piece more than there are dots, empty pieces included. */
  function SplitDots(s: string): (parts: seq<string>)
    ensures |parts| >= 1
    decreases |s|
  {
    if s == [] then [""]
    else
      var rest := SplitDots(s[1..]);
      if s[0] == '.' then [""] + rest
      else [[s[0]] + rest[0]] + rest[1..]
  }

  /** No piece contains a dot, and there are two pieces or more exactly when
      the string has a dot. */
  lemma {:induction false} SplitDotsPieces(s: string)
    ensures forall k :: 0 <= k < |SplitDots(s)| ==> '.' !in SplitDots(s)[k]
    ensures '.' in s <==> |SplitDots(s)| >= 2
    decreases |s|
  {
    if s != [] {
      SplitDotsPieces(s[1..]);
      var rest := SplitDots(s[1..]);
      assert '.' in s <==> s[0] == '.' || '.' in s[1..] by {
        assert s == [s[0]] + s[1..];
      }
      if s[0] != '.' {
        var parts := SplitDots(s);
        assert parts[0] == [s[0]] + rest[0];
        forall k | 0 <= k < |parts| ensures '.' !in parts[k] {
          if k > 0 {
            assert parts[k] == rest[k];
          }
        }
      }
    }
  }

  /** Go's `strings.Join(parts, sep)`. */
  function Join(parts: seq<string>, sep: string): string
    decreases |parts|
  {
    if |parts| == 0 then ""
    else if |parts| == 1 then parts[0]
    else parts[0] + sep + Join(parts[1..], sep)
  }

  /** A piece without dots followed by a dot splits off as the first piece. */
  lemma {:induction false} SplitDotsCons(a: string, r: string)
    requires '.' !in a
    ensures SplitDots(a + "." + r) == [a] + SplitDots(r)
    decreases |a|
  {
    var s := a + "." + r;
    if a == [] {
      assert s == "." + r;
      assert s[1..] == r;
    } else {
      assert s[1..] == a[1..] + "." + r;
      SplitDotsCons(a[1..], r);
      assert [s[0]] + a[1..] == a;
    }
  }

  /** Joining dot-free labels with "." and splitting again gives the labels. */
  lemma {:induction false} SplitDotsJoin(labels: seq<string>)
    requires |labels| >= 1
    requires forall k :: 0 <= k < |labels| ==> '.' !in labels[k]
    ensures SplitDots(Join(labels, ".")) == labels
    decreases |labels|
  {
    if |labels| == 1 {
      SplitDotsNoDot(labels[0]);
    } else {
      SplitDotsJoin(labels[1..]);
      SplitDotsCons(labels[0], Join(labels[1..], "."));
      assert [labels[0]] + labels[1..] == labels;
    }
  }

  /** A string without dots is a single piece. */
  lemma {:induction false} SplitDotsNoDot(s: string)
    requires '.' !in s
    ensures SplitDots(s) == [s]
    decreases |s|
  {
    if s != [] {
      SplitDotsNoDot(s[1..]);
      assert [s[0]] + s[1..] == s;
    }
  }

  // ---------------------------------------------------------------------
  // strings.Contains

  predicate ContainsAt(s: string, sub: string, i: nat)
  {
    i + |sub| <= |s| && s[i..i + |sub|] == sub
  }

  /** Go's `strings.Contains(s, sub)`. */
  predicate Contains(s: string, sub: string)
  {
    exists i: nat | i <= |s| :: ContainsAt(s, sub, i)
  }

  lemma ContainsLeft(a: string, b: string, sub: string)
    requires Contains(a, sub)
    ensures Contains(a + b, sub)
  {
    var i: nat :| i <= |a| && ContainsAt(a, sub, i);
    assert (a + b)[i..i + |sub|] == a[i..i + |sub|];
    assert ContainsAt(a + b, sub, i);
  }

  lemma ContainsRight(a: string, b: string, sub: string)
    requires Contains(b, sub)
    ensures Contains(a + b, sub)
  {
    var i: nat :| i <= |b| && ContainsAt(b, sub, i);
    assert (a + b)[|a| + i..|a| + i + |sub|] == b[i..i + |sub|];
    assert ContainsAt(a + b, sub, |a| + i);
  }

  /** Whatever one of four pieces contains, the four joined contain. */
  lemma InFourPieces(a: string, b: string, c: string, d: string, sub: string, k: nat)
    requires k < 4
    requires Contains([a, b, c, d][k], sub)
    ensures Contains(a + b + c + d, sub)
  {
    if k == 0 {
      ContainsLeft(a, b, sub);
    } else if k == 1 {
      ContainsRight(a, b, sub);
    }
    if k <= 1 {
      ContainsLeft(a + b, c, sub);
    } else if k == 2 {
      ContainsRight(a + b, c, sub);
    }
    if k <= 2 {
      ContainsLeft(a + b + c, d, sub);
    } else {
      ContainsRight(a + b + c, d, sub);
    }
  }

  /** Whatever one of five pieces contains, the five joined contain. */
  lemma InFivePieces(a: string, b: string, c: string, d: string, e: string, sub: string, k: nat)
    requires k < 5
    requires Contains([a, b, c, d, e][k], sub)
    ensures Contains(a + b + c + d + e, sub)
  {
    if k == 0 {
      ContainsLeft(a, b, sub);
    } else if k == 1 {
      ContainsRight(a, b, sub);
    }
    if k <= 1 {
      ContainsLeft(a + b, c, sub);
    } else if k == 2 {
      ContainsRight(a + b, c, sub);
    }
    if k <= 2 {
      ContainsLeft(a + b + c, d, sub);
    } else if k == 3 {
      ContainsRight(a + b + c, d, sub);
    }
    if k <= 3 {
      ContainsLeft(a + b + c + d, e, sub);
    } else {
      ContainsRight(a + b + c + d, e, sub);
    }
  }

  lemma ContainsSelf(s: string)
    ensures Contains(s, s)
  {
    assert ContainsAt(s, s, 0);
  }

  /** Every joined part appears in the joined string. */
  lemma {:induction false} JoinContains(parts: seq<string>, sep: string, k: nat)
    requires k < |parts|
    ensures Contains(Join(parts, sep), parts[k])
    decreases |parts|
  {
    if |parts| == 1 {
      ContainsSelf(parts[0]);
    } else {
      var rest := Join(parts[1..], sep);
      assert Join(parts, sep) == parts[0] + sep + rest;
      if k == 0 {
        ContainsSelf(parts[0]);
        ContainsLeft(parts[0], sep, parts[0]);
        ContainsLeft(parts[0] + sep, rest, parts[0]);
      } else {
        JoinContains(parts[1..], sep, k - 1);
        assert parts[1..][k - 1] == parts[k];
        ContainsRight(parts[0] + sep, rest, parts[k]);
      }
    }
  }

  /** Containment passes on to a string that contains the container. */
  lemma ContainsTrans(s: string, mid: string, sub: string)
    requires Contains(s, mid) && Contains(mid, sub)
    ensures Contains(s, sub)
  {
    var i: nat :| i <= |s| && ContainsAt(s, mid, i);
    var j: nat :| j <= |mid| && ContainsAt(mid, sub, j);
    assert i + |mid| <= |s| && j + |sub| <= |mid|;
    var t := s[i + j..i + j + |sub|];
    forall k | 0 <= k < |sub| ensures t[k] == sub[k] {
      assert s[i + (j + k)] == s[i..i + |mid|][j + k];
      assert mid[j + k] == mid[j..j + |sub|][k];
    }
    assert t == sub;
    assert ContainsAt(s, sub, i + j);
  }

  // ---------------------------------------------------------------------
  // Decimal formatting (fmt's %d)

  function Digit(d: nat): (c: char)
    requires d < 10
    ensures '0' <= c <= '9' && c as int - '0' as int == d
  {
    "0123456789"[d]
  }

  /** The decimal digits of `n`, without leading zeros. */
  function NatToString(n: nat): (s: string)
    ensures |s| >= 1 && (|s| > 1 ==> s[0] != '0')
    ensures forall k :: 0 <= k < |s| ==> '0' <= s[k] <= '9'
    decreases n
  {
    if n < 10 then [Digit(n)] else NatToString(n / 10) + [Digit(n % 10)]
  }

  /** fmt's `%d` of a signed integer. */
  function IntToString(i: int): (s: string)
    ensures |s| >= 1
    ensures (s[0] == '-') <==> i < 0
  {
    if i < 0 then "-" + NatToString(-i) else NatToString(i)
  }

  /** fmt's `%q` for strings without quotes, backslashes or control characters. */
  function Quote(s: string): (q: string)
    ensures |q| == |s| + 2 && q[0] == '"' && q[|q| - 1] == '"' && q[1..|q| - 1] == s
  {
    "\"" + s + "\""
  }

  // ---------------------------------------------------------------------
  // strconv.Atoi and strconv.ParseBool

  predicate AllDigits(s: string)
  {
    forall k :: 0 <= k < |s| ==> '0' <= s[k] <= '9'
  }

  /** The value of a decimal digit character. */
  function DigitValue(c: char): nat
    requires '0' <= c <= '9'
  {
    c as int - '0' as int
  }

  /** The number `acc` followed by the decimal digits of s. */
  function Accumulated(acc: nat, s: string): nat
    requires AllDigits(s)
    decreases |s|
  {
    if s == [] then acc else Accumulated(acc * 10 + DigitValue(s[0]), s[1..])
  }

  /** The value of a string of decimal digits, most significant first. */
  function DigitsValue(s: string): nat
    requires AllDigits(s)
  {
    Accumulated(0, s)
  }

  /** The nearest 64-bit integer, as strconv returns on a range error. */
  function Clamp64(x: int): (r: Int64)
    ensures MinInt64 <= x <= MaxInt64 ==> r == x
  {
    if x < MinInt64 then MinInt64 else if x > MaxInt64 then MaxInt64 else x
  }

  /** strconv's bound on the magnitude it reads before a range error. */
  const MaxUint64: int := 0xffff_ffff_ffff_ffff

  /** Where the digit loop of strconv.ParseUint stops. */
  datatype Scanned = Fits(value: nat) | NotDigit | TooLarge

  /** strconv.ParseUint's loop in base 10, with `acc` read so far: a byte that
      is not a digit is a syntax error, and a digit that takes the magnitude
      past 2^64 - 1 a range error, whichever comes first. */
  function ScanDigits(s: string, acc: nat): Scanned
    decreases |s|
  {
    if s == [] then Fits(acc)
    else if !('0' <= s[0] <= '9') then NotDigit
    else if acc * 10 + DigitValue(s[0]) > MaxUint64 then TooLarge
    else ScanDigits(s[1..], acc * 10 + DigitValue(s[0]))
  }

  /** Go's `strconv.Atoi` on a 64-bit platform: an optional sign and one or
      more decimal digits, read from the left. None is a syntax error (Atoi's
      value is then 0). A range error, and a magnitude beyond the 64-bit
      range, yield the value clamped by the sign, which Atoi returns together
      with its error. */
  function Atoi(s: string): Option<Int64>
  {
    if |s| > 0 && (s[0] == '+' || s[0] == '-') then AtoiUnsigned(s[0] == '-', s[1..]) else AtoiUnsigned(false, s)
  }

  /** Atoi after the sign. */
  function AtoiUnsigned(negative: bool, digits: string): Option<Int64>
  {
    if digits == [] then None
    else match ScanDigits(digits, 0)
      case TooLarge => Some(if negative then MinInt64 else MaxInt64)
      case NotDigit => None
      case Fits(n) => Some(Clamp64(if negative then 0 - n else n))
  }

  /** The int Atoi returns, whatever its error: 0 on a syntax error. */
  function AtoiValue(parsed: Option<Int64>): Int64
  {
    if parsed.Some? then parsed.value else 0
  }

  /** One more digit on the right multiplies by ten and adds it. */
  lemma {:induction false} AccumulatedSnoc(acc: nat, s: string, c: char)
    requires AllDigits(s) && '0' <= c <= '9'
    ensures AllDigits(s + [c]) && Accumulated(acc, s + [c]) == Accumulated(acc, s) * 10 + DigitValue(c)
    decreases |s|
  {
    if s != [] {
      assert (s + [c])[1..] == s[1..] + [c];
      AccumulatedSnoc(acc * 10 + DigitValue(s[0]), s[1..], c);
    }
  }

  /** Digits after `acc` shift it left by their count. */
  lemma {:induction false} AccumulatedAtLeast(acc: nat, s: string)
    requires AllDigits(s)
    ensures Accumulated(acc, s) >= acc * Pow10(|s|) >= acc
    decreases |s|
  {
    if s != [] {
      var next := acc * 10 + DigitValue(s[0]);
      var p := Pow10(|s| - 1);
      AccumulatedAtLeast(next, s[1..]);
      Pow10Positive(|s| - 1);
      MulMonotone(acc * 10, next, p);
      assert acc * Pow10(|s|) == (acc * 10) * p;
      MulMonotone(1, Pow10(|s|), acc);
    }
  }

  lemma MulMonotone(a: nat, b: nat, c: nat)
    requires a <= b
    ensures a * c <= b * c
  {
  }

  function Pow10(n: nat): nat
  {
    if n == 0 then 1 else 10 * Pow10(n - 1)
  }

  lemma {:induction false} Pow10Positive(n: nat)
    ensures Pow10(n) >= 1
  {
    if n > 0 {
      Pow10Positive(n - 1);
    }
  }

  /** Reading back the decimal digits of n gives n. */
  lemma {:induction false} DigitsValueOfNat(n: nat)
    ensures AllDigits(NatToString(n)) && DigitsValue(NatToString(n)) == n
    decreases n
  {
    if n >= 10 {
      DigitsValueOfNat(n / 10);
      AccumulatedSnoc(0, NatToString(n / 10), Digit(n % 10));
    } else {
      var s := [Digit(n)];
      assert NatToString(n) == s && s[1..] == [];
      assert Accumulated(0, s) == Accumulated(DigitValue(s[0]), []);
    }
  }

  /** Digits whose value fits are read to the end. */
  lemma {:induction false} ScanFits(s: string, acc: nat)
    requires AllDigits(s) && Accumulated(acc, s) <= MaxUint64
    ensures ScanDigits(s, acc) == Fits(Accumulated(acc, s))
    decreases |s|
  {
    if s != [] {
      var next := acc * 10 + DigitValue(s[0]);
      AccumulatedAtLeast(next, s[1..]);
      ScanFits(s[1..], next);
    }
  }

  /** Once the digits read exceed 2^64 - 1, the loop stops with a range
      error, whatever follows them. */
  lemma {:induction false} ScanOverflow(digits: string, rest: string, acc: nat)
    requires AllDigits(digits) && acc <= MaxUint64 && Accumulated(acc, digits) > MaxUint64
    ensures ScanDigits(digits + rest, acc) == TooLarge
    decreases |digits|
  {
    if digits != [] {
      var s := digits + rest;
      assert s[0] == digits[0] && s[1..] == digits[1..] + rest;
      var next := acc * 10 + DigitValue(digits[0]);
      if next <= MaxUint64 {
        ScanOverflow(digits[1..], rest, next);
      }
    }
  }

  /** Digits that fit, then a byte that is not a digit: a syntax error. */
  lemma {:induction false} ScanTrailing(digits: string, c: char, rest: string, acc: nat)
    requires AllDigits(digits) && Accumulated(acc, digits) <= MaxUint64 && !('0' <= c <= '9')
    ensures ScanDigits(digits + [c] + rest, acc) == NotDigit
    decreases |digits|
  {
    var s := digits + [c] + rest;
    if digits == [] {
      assert s[0] == c;
    } else {
      assert s[0] == digits[0] && s[1..] == digits[1..] + [c] + rest;
      var next := acc * 10 + DigitValue(digits[0]);
      AccumulatedAtLeast(next, digits[1..]);
      ScanTrailing(digits[1..], c, rest, next);
    }
  }

  /** Atoi strips one sign. */
  lemma AtoiSign(c: char, s: string)
    requires c == '+' || c == '-'
    ensures Atoi([c] + s) == AtoiUnsigned(c == '-', s)
  {
    assert ([c] + s)[1..] == s;
  }

  /** Without a sign Atoi reads the whole string. */
  lemma AtoiNoSign(s: string)
    requires s != [] && '0' <= s[0] <= '9'
    ensures Atoi(s) == AtoiUnsigned(false, s)
  {
  }

  /** After the sign, a run of digits that fits is read with its sign. */
  lemma AtoiUnsignedDigits(negative: bool, digits: string)
    requires digits != [] && AllDigits(digits) && DigitsValue(digits) <= MaxUint64
    ensures AtoiUnsigned(negative, digits) ==
              Some(Clamp64(if negative then 0 - DigitsValue(digits) as int else DigitsValue(digits)))
  {
    ScanFits(digits, 0);
  }

  /** Unsigned digits that fit are read as their value. */
  lemma AtoiDigits(s: string)
    requires s != [] && AllDigits(s) && DigitsValue(s) <= MaxInt64
    ensures Atoi(s) == Some(DigitsValue(s))
  {
    AtoiNoSign(s);
    AtoiUnsignedDigits(false, s);
  }

  /** Atoi reads back what %d prints, for every 64-bit integer. */
  lemma AtoiIntToString(i: Int64)
    ensures Atoi(IntToString(i)) == Some(i)
  {
    var s := IntToString(i);
    if i < 0 {
      var m: nat := -(i as int);
      DigitsValueOfNat(m);
      AtoiUnsignedDigits(true, NatToString(m));
      assert s == "-" + NatToString(m);
      AtoiSign('-', NatToString(m));
    } else {
      DigitsValueOfNat(i);
      AtoiDigits(NatToString(i));
    }
  }

  /** Once the digits read exceed 2^64 - 1, Atoi reports the clamped value
      whatever follows them, a byte that is not a digit included. */
  lemma AtoiOverflowIgnoresRest(digits: string, rest: string)
    requires AllDigits(digits) && DigitsValue(digits) > MaxUint64
    ensures Atoi(digits + rest) == Some(MaxInt64)
    ensures Atoi("+" + digits + rest) == Some(MaxInt64)
    ensures Atoi("-" + digits + rest) == Some(MinInt64)
  {
    ScanOverflow(digits, rest, 0);
    assert digits != [] && (digits + rest)[0] == digits[0];
    AtoiNoSign(digits + rest);
    assert "+" + digits + rest == ['+'] + (digits + rest);
    AtoiSign('+', digits + rest);
    assert "-" + digits + rest == ['-'] + (digits + rest);
    AtoiSign('-', digits + rest);
  }

  /** Twenty nines overflow before the stray byte is read. */
  lemma AtoiOverflowExample(s: string)
    requires s == "99999999999999999999x"
    ensures Atoi(s) == Some(MaxInt64)
  {
    var nines := s[..20];
    assert |nines| == 20 && nines[0] == '9' && AllDigits(nines);
    TwentyDigitsOverflow(nines);
    assert s == nines + s[20..];
    AtoiOverflowIgnoresRest(nines, s[20..]);
  }

  /** Twenty digits led by 2 or more exceed 2^64 - 1. */
  lemma TwentyDigitsOverflow(s: string)
    requires |s| == 20 && AllDigits(s) && '2' <= s[0]
    ensures DigitsValue(s) > MaxUint64
  {
    var tail := s[1..];
    assert DigitsValue(s) == Accumulated(DigitValue(s[0]), tail);
    AccumulatedAtLeast(DigitValue(s[0]), tail);
    assert Pow10(19) == 10 * Pow10(18);
    assert Pow10(19) == Pow10(9) * Pow10(10);
    assert Pow10(9) == 1_000_000_000 && Pow10(10) == 10_000_000_000;
  }

  /** A number that fits, followed by a byte that is not a digit, is a syntax
      error. */
  lemma AtoiTrailingByte(digits: string, c: char, rest: string)
    requires digits != [] && AllDigits(digits) && DigitsValue(digits) <= MaxUint64 && !('0' <= c <= '9')
    ensures Atoi(digits + [c] + rest) == None
  {
    var s := digits + [c] + rest;
    ScanTrailing(digits, c, rest, 0);
    assert s[0] == digits[0];
    AtoiNoSign(s);
  }

  /** Atoi fails on the empty string, an unset environment variable. */
  lemma AtoiEmpty()
    ensures Atoi("") == None && AtoiValue(Atoi("")) == 0
  {
  }

  /** Go's `strconv.ParseBool`; None is its syntax error. */
  function ParseBool(s: string): Option<bool>
  {
    if s in {"1", "t", "T", "TRUE", "true", "True"} then Some(true)
    else if s in {"0", "f", "F", "FALSE", "false", "False"} then Some(false)
    else None
  }

  /** Go's `strconv.FormatBool`. */
  function FormatBool(b: bool): string
  {
    if b then "true" else "false"
  }

  /** ParseBool reads back what FormatBool writes, and rejects the empty
      string. */
  lemma ParseBoolFormatBool(b: bool)
    ensures ParseBool(FormatBool(b)) == Some(b)
    ensures ParseBool("") == None
  {
  }
}
